=== FILE: README.md ===
# Inventory app: stock accounting, request gateway and page state

This project is a Dafny model of an inventory app for small food businesses. The app has a Django REST back end and a React front end. The model covers two parts.

- **The back end.** Each user owns:
  - stock items (raw materials with a quantity and a unit);
  - products (things they sell, each made of ingredients that draw on stock items);
  - transactions (sales of a product).

  The model shows how recording a sale takes stock and how deleting it gives stock back. It also covers:
  - the per-user name rules for stock items and products;
  - the serializers that create and update users and products;
  - the REST views that list, create and delete;
  - the weekly sales dashboard;
  - password change.
- **The front end.**
  - The session store: `localStorage`, abstracted as a map.
  - The axios client with its two interceptors: one attaches the access token, the other answers a 401 by refreshing the token and re-issuing the request.
  - The list and form logic of the stock page and of the product part of the transactions page.

Everything is a pure function over immutable values:

- The database is a record of tables. Stock items, products and users are maps from key to row. Ingredient rows and transactions are sequences in table order. One counter supplies fresh keys.
- An operation that may raise returns a `Result`.
- An atomic block is modelled by returning either the new database or nothing.
- Quantities (`FloatField`) are Dafny `real`s, so sums are exact.

| file | module | models |
|---|---|---|
| `common.dfy` | `Common` | `Option` and `Result` |
| `models.dfy` | `Models` | `inventory_system/main/models.py`: entities, `save` rules, `reduce_stock`, `reverse_stock`, `Transaction.delete` |
| `serializers.dfy` | `Serializers` | `inventory_system/main/serializers.py`: token response, user create/update, product create/update |
| `queries.dfy` | `Queries` | newest-first ordering and per-week sums used by the views |
| `views.dfy` | `Views` | `inventory_system/main/views.py`: listings, create hooks, transaction destroy, dashboard, password change |
| `gateway.dfy` | `Gateway` | `inventory-frontend/src/api.js`: session transitions, interceptors, the 401 policy, `login`, `addTransaction` |
| `transactions_page.dfy` | `TransactionsPage` | `inventory-frontend/src/pages/TransactionsPage.js`: ingredient rows and the product list |
| `stock_page.dfy` | `StockPage` | `inventory-frontend/src/pages/StockPage.js`: duplicate guard, per-index edit, edit toggle |

### The stock arithmetic of a sale

`reduce_stock` subtracts `quantity_required * quantity_sold` from each ingredient's stock item. `reverse_stock` adds back only half of that amount. `Transaction.delete` calls `reverse_stock`.

Deleting a sale through the ORM alone therefore gives back half (`Models.ModelDeleteRestoresHalf`). The API's `destroy` calls `reverse_stock` itself and then deletes the row, so the two halves add up. Recording a sale through the API and then deleting it through the API leaves the database exactly as it was, apart from the key counter (`Views.ApiDestroyRestoresStock`).

### Behaviour of the code worth knowing

- `logout` in `api.js` removes both tokens and the default header, but leaves `userId` in the store. The profile page's logout button removes `userId` itself. The logout the 401 handler performs does not.
- The 401 handler sends the refresh post and the retried request through the same client, so both re-enter the handler. `login` and `addTransaction` go through it too. A revoked refresh token, or wrong credentials typed while a valid refresh token is still stored, makes a call that never settles. See Findings.
- A transaction may be recorded on any existing product, including another user's. The serializer's queryset is all products. It can only be deleted through the owner of its product.
- A product update with an empty ingredient list keeps the old ingredients, because an empty list is falsy.
- `StockItem.save` tests `not self.pk`, so a row whose key were 0 would be checked as if it were new. Keys are modelled as starting at 1, as an auto-increment key does, so in a valid database this happens only to new rows.

## Model

| member | source | states |
|---|---|---|
| Models.CheckPassword | inventory_system/main/views.py:170 | A candidate checks exactly when it is present and the column holds what `set_password` stores for it. |
| Models.SetPassword | inventory_system/main/views.py:173 | The column never holds a raw password: it is hashed, or unusable exactly when no password was given. |
| Models.SetThenCheck | inventory_system/main/views.py:170-173 | After `set_password`, exactly the password that was set checks, and nothing checks after `set_password(None)`. |
| Models.SaveStockItemAsWritten | inventory_system/main/models.py:34-37 | A save is rejected as a duplicate exactly when the primary key is falsy (absent, or 0) and the owner already has a stock item of that name, the row itself included. A save under any other key is never checked. A successful save writes only that row: an insert under `nextId`, which is fresh in a valid database, and an update under its own key. |
| Models.SaveStockItem | inventory_system/main/models.py:34-37 | Corrected rule: rejected exactly when another row of the same owner has the name. On inserts it coincides with the code as written. A successful save writes only that row, and an insert takes a fresh key. |
| Models.SaveStockItemKeepsNamesUnique | inventory_system/main/models.py:34-37 | A successful save under the corrected rule keeps stock-item names unique per user. |
| Models.StockRenameBreaksUniqueness | inventory_system/main/models.py:35 | Concrete input: the code as written accepts renaming a user's item onto another of their item names, which breaks uniqueness. The corrected rule rejects it. |
| Models.SaveProduct | inventory_system/main/models.py:47-50 | Rejected exactly when another product of the same user has the name; the row itself is excluded. A successful save writes only that row and no other table: an update under its own key, an insert under `nextId`, which is fresh in a valid database. |
| Models.SaveProductKeepsNamesUnique | inventory_system/main/models.py:47-50 | A successful product save keeps product names unique per user. |
| Models.ResaveUnderOwnName | inventory_system/main/models.py:48 | Re-saving a product under its own name and owner is accepted. |
| Models.IngredientsOf | inventory_system/main/models.py:68 | A product's ingredients are exactly the ingredient rows linked to it. |
| Models.DropIngredientsOf | inventory_system/main/serializers.py:89 | After deleting a product's ingredient rows, none of its rows remain and every other product's ingredients are unchanged. |
| Models.ReduceStock | inventory_system/main/models.py:66-79 | On success every stock item has lost exactly what the sale consumes of it: the sum of `quantity_required * quantity_sold` over the rows naming it. Every ingredient's item exists and nothing else changes. On failure the error is an insufficient item (available below required) or a missing item, and no stock change is returned. |
| Models.ReduceStockKeepsNonNegative | inventory_system/main/models.py:72-78 | A successful reduction leaves every touched stock item at zero or more, and never drives a non-negative quantity below zero. |
| Models.ConsumedDistinct | inventory_system/main/models.py:68-69 | With one row per stock item, the sale draws `quantity_required * quantity_sold` from each ingredient's item and nothing from any other item. |
| Models.ReduceStockFailsIffShort | inventory_system/main/models.py:67-76 | With one row per stock item, `reduce_stock` raises exactly when some ingredient's item is missing or holds less than required. |
| Models.ReverseStock | inventory_system/main/models.py:81-87 | Each stock item gets back exactly half of what the sale consumed of it. The reversal fails only on a dangling stock item. |
| Models.ReduceFor | inventory_system/main/models.py:66-79 | `reduce_stock` on the database succeeds exactly when the stock-level reduction does. Only the stock table changes, and each item loses what the sale consumes of it. |
| Models.ReverseFor | inventory_system/main/models.py:81-87 | `reverse_stock` on the database fails exactly on a dangling stock item. Only the stock table changes, and each item gets back half of what the sale consumed of it. |
| Models.DeleteTransaction | inventory_system/main/models.py:89-91 | Deleting a transaction first gives back half the consumed stock and then removes exactly that row. It fails exactly when that reversal fails. Only stock and transactions change, and a valid database stays valid. |
| Models.ReduceThenReverseTwice | inventory_system/main/models.py:66-91 | After a successful reduction, reversing the same sale twice brings every stock item back to its exact old quantity. Neither reversal can fail. |
| Models.ModelDeleteRestoresHalf | inventory_system/main/models.py:66-91 | Reducing and then deleting through the model leaves each item at its old quantity minus half of what the sale consumed. |
| Serializers.ValidateToken | inventory_system/main/serializers.py:17-21 | A token response exists exactly when authentication succeeded. It carries the pair issued for that user and `user_id` equal to the authenticated user's id. |
| Serializers.RegisterThenObtainToken | inventory_system/main/serializers.py:17-21 | After registration, the new user, and no one else, authenticates with the registered username. Only the registered password works, and the token response names that user. |
| Serializers.CreateUser | inventory_system/main/serializers.py:34-36 | Registration stores a hashed password, never the raw one. The submitted password, and no other, checks against it. Other users are untouched. |
| Serializers.ApplyItems | inventory_system/main/serializers.py:45-46 | Every supplied attribute ends with the value supplied last for it. Every unsupplied attribute and the picture are untouched. |
| Serializers.UpdateUserAsWritten | inventory_system/main/serializers.py:38-48 | A truthy picture replaces the stored one; a missing or empty one keeps it. Supplied fields are overwritten and others are kept. A supplied password is stored as raw text. |
| Serializers.UpdateUser | inventory_system/main/serializers.py:38-48 | Corrected update: the same as the code as written on every attribute except the password, which is stored hashed. |
| Serializers.PasswordUpdateLocksOut | inventory_system/main/serializers.py:45-47 | After a profile update that supplies a password, that password no longer checks under the code as written. It checks under the corrected update. |
| Serializers.Link | inventory_system/main/serializers.py:74-79 | Exactly one ingredient row per input entry, in order, each linked to the product with the entry's stock item and quantity. |
| Serializers.CreateProduct | inventory_system/main/serializers.py:70-80 | Rejected exactly on a duplicate name. Otherwise the product is inserted under a fresh key and one ingredient row per entry is appended. Stock, transactions and users are untouched, and a valid database stays valid. |
| Serializers.CreateProductIngredients | inventory_system/main/serializers.py:70-80 | The new product's ingredients are exactly the linked input entries. |
| Serializers.UpdateProduct | inventory_system/main/serializers.py:82-96 | An absent name or unit keeps the stored one. A non-empty ingredient list becomes exactly the product's ingredients. An absent or empty list leaves the ingredients as they were. Other products' ingredients never change. Stock, transactions, users and the key counter are untouched, and a valid database stays valid. |
| Serializers.ReplaceIngredients | inventory_system/main/serializers.py:87-94 | After the product's rows are deleted and one row per entry is created, the product's ingredients are exactly the new entries, every other product's are unchanged, and every row is either an old row or one of the product's. |
| Queries.InsertByDate | inventory_system/main/views.py:96 | Inserting into a newest-first list keeps it newest first and adds exactly the one row. |
| Queries.SortNewestFirst | inventory_system/main/views.py:96 | The result is ordered newest first and is a permutation of the input. |
| Queries.AddSale | inventory_system/main/views.py:126-129 | Adding a sale keeps weeks strictly ascending. It raises the total of its week by the quantity, changes no other week's total, and adds only that week. |
| Queries.WeeklySales | inventory_system/main/views.py:126-129 | Weeks strictly ascend, so each week has one entry. A week is listed exactly when some sale falls in it. Each week's total equals the reference sum of the quantities sold in it. |
| Queries.WeeklySalesEntries | inventory_system/main/views.py:126-140 | Every dashboard entry holds exactly the sales of its own week. |
| Views.ListStock | inventory_system/main/views.py:51-52 | The stock listing holds exactly the requester's stock items, unchanged. |
| Views.ListProducts | inventory_system/main/views.py:75-76 | The product listing holds exactly the requester's products, unchanged. |
| Views.OwnedTransactions | inventory_system/main/views.py:89-93 | Exactly the transactions on the requester's products, narrowed to one product when a product id is given. |
| Views.ListTransactions | inventory_system/main/views.py:87-96 | The listing is ordered newest first and is a permutation of the owned, filtered transactions. |
| Views.Dashboard | inventory_system/main/views.py:119-141 | One entry per week in which the requester sold anything, weeks ascending, each holding that week's total quantity sold. |
| Views.CreateStockItem | inventory_system/main/views.py:54-57 | A name the requester already uses gives a 400 and stores nothing. Otherwise the item is inserted under a fresh key with the requester as owner. A valid database stays valid. |
| Views.CreateStockItemIsolation | inventory_system/main/views.py:51-57 | Creating a stock item changes no other user's listing. On success it adds exactly the new item, under the returned key, to the requester's listing. |
| Views.CreateStockItemKeepsNamesUnique | inventory_system/main/views.py:54-57 | If no owner has two stock items with the same name before a create through the API, none does after it. |
| Views.CreateProductView | inventory_system/main/views.py:78-81 | A product is created exactly when every ingredient's stock item exists and the requester has no product of that name. Otherwise there is a 400 and nothing is stored. A created product leaves stock, transactions and users as they were and moves the key counter by one, and a valid database stays valid. |
| Views.CreateProductIsolation | inventory_system/main/views.py:75-81 | Creating a product changes no other user's product listing and nobody's stock listing. |
| Views.CreateProductListsNew | inventory_system/main/views.py:75-81 | A successful product create adds exactly the new product, under the returned key, to the requester's listing. |
| Views.CreateProductKeepsNamesUnique | inventory_system/main/views.py:78-81 | If no owner has two products with the same name before a create through the API, none does after it. |
| Views.CreateTransactionView | inventory_system/main/views.py:98-101 | A sale is recorded exactly when the product exists and `reduce_stock` succeeds. Then the row is appended with the requester as owner and stock drops by the consumed amounts. Otherwise neither the row nor any stock change persists. Ingredients, products and users never change, and a valid database stays valid. |
| Views.FindById | inventory_system/main/views.py:105 | A row is found exactly when one with that key exists, and the row found has that key. |
| Views.DestroyTransactionView | inventory_system/main/views.py:87-114 | The row is looked up through `get_queryset`: a transaction outside the requester's products, or outside the product a `product_id` names, gives a 404 with nothing changed. A server error (a dangling stock item) also leaves the database as it was. A successful delete gives a 204, removes the row and gives back the full consumed amount: two half reversals. Whatever the outcome, only stock and transactions can change, and a valid database stays valid. |
| Views.ApiDestroyRestoresStock | inventory_system/main/views.py:103-114 | Recording a sale and then deleting it through the API restores every stock quantity and the transaction table exactly. |
| Views.ChangePassword | inventory_system/main/views.py:165-175 | A wrong current password gives a 400 and changes nothing. Otherwise a 200, only the user's password changes, and afterwards exactly the new password checks. A valid database stays valid. |
| Gateway.Logout | inventory-frontend/src/api.js:40-44 | Both tokens and the default header are gone. `userId` and every other key are kept. |
| Gateway.LogoutIdempotent | inventory-frontend/src/api.js:40-44 | Logging out twice gives the same state as logging out once. |
| Gateway.StoreLogin | inventory-frontend/src/api.js:17-21 | The store holds the response's user id and both tokens, other keys are unchanged, and the default header is `Bearer <access>`. Every later request without its own header carries that token. |
| Gateway.StoreAccess | inventory-frontend/src/api.js:28-29 | Only `access_token` and the default header change; `refresh_token` and `userId` are kept. Every later request without its own header carries the new token. |
| Gateway.MergeDefaults | inventory-frontend/src/api.js:7-12 | A request's own `Authorization` header wins over the client default. Nothing else about the request changes. |
| Gateway.InterceptRequest | inventory-frontend/src/api.js:47-56 | A stored access token sets `Authorization` to `Bearer <token>`, overriding any header. With none stored the config passes through unchanged. |
| Gateway.Send | inventory-frontend/src/api.js:47-56 | The header on the wire is the stored token if any, else the request's own header, else the client default. Verb, path and body are untouched. |
| Gateway.LoggedOutRequestsCarryNoToken | inventory-frontend/src/api.js:40-56 | After logout, a request without its own header goes out exactly as given. |
| Gateway.Dispatch | inventory-frontend/src/api.js:59-72 | First round of the interceptor as written. A network error becomes a `TypeError`. A 2xx resolves. A non-401 error, or a 401 with no refresh token stored, is rejected unchanged with the session untouched. |
| Gateway.RefreshToken | inventory-frontend/src/api.js:25-31 | The refresh post is the first request `refreshToken` puts on the wire. |
| Gateway.RefreshOneRound | inventory-frontend/src/api.js:25-31 | When the refresh post succeeds, only the access token and the default header change. |
| Gateway.Dispatch401OneRound | inventory-frontend/src/api.js:62-70 | On a 401 with a refresh token stored, a refresh request follows. If that refresh is rejected, the session is logged out and the caller gets the original 401, not the refresh error. |
| Gateway.RefreshNeverSettles | inventory-frontend/src/api.js:25-31 | When every refresh is answered 401, `refreshToken` never settles, for any fuel bound. |
| Gateway.ExpiredSessionNeverLogsOut | inventory-frontend/src/api.js:59-72 | Under the code as written, a 401 on a session whose refresh token was revoked never settles and never logs out, for any fuel bound. |
| Gateway.DispatchOnce | inventory-frontend/src/api.js:59-72 | Corrected policy: at most one refresh and one retry. Any refresh failure logs out and rejects with the original 401. A successful refresh re-issues the same request with the new token. |
| Gateway.DispatchAgreesWithOnce | inventory-frontend/src/api.js:59-72 | Where no second 401 arrives, the code as written and the corrected policy give the same session, outcome and requests on the wire. |
| Gateway.Login | inventory-frontend/src/api.js:15-23 | `login` as written: the post goes through the client's 401 handler and settles as that request does. On success the session is stored; otherwise the session is as the request left it. A first answer of 2xx stores the session after one request. |
| Gateway.LoginOnce | inventory-frontend/src/api.js:15-23 | `login` over the corrected dispatcher: the same session handling, and it always settles. |
| Gateway.LoginAgreesWithOnce | inventory-frontend/src/api.js:15-23 | Where no second 401 arrives, `login` as written and over the corrected dispatcher give the same result. |
| Gateway.LoginStoresSession | inventory-frontend/src/api.js:15-23 | After a successful login the store holds `userId`, `access_token` and `refresh_token` from the response. The default header and the next request carry `Bearer <access>`. |
| Gateway.RenewedRequestNeverSettles | inventory-frontend/src/api.js:59-72 | A request to a path always answered 401, sent while refreshes are granted, is refreshed and retried without end, whatever the fuel. |
| Gateway.AsWrittenLoginLoops | inventory-frontend/src/api.js:15-23 | Wrong credentials sent while a valid refresh token is stored make `login` as written loop. Over the corrected dispatcher the same login is rejected. |
| Gateway.Rethrow | inventory-frontend/src/api.js:78-85 | An error with response data is rethrown as it is. Every other error becomes the generic error. |
| Gateway.RethrowIdempotent | inventory-frontend/src/api.js:78-85 | Rethrowing what the catch already rethrew changes nothing. What comes out is always an HTTP error with a body, or the generic error. |
| Gateway.AddTransaction | inventory-frontend/src/api.js:74-86 | `addTransaction` as written: the post goes through the client's 401 handler. A success passes through. An HTTP error with data is rethrown unchanged; every other failure becomes "An unknown error occurred", so a `TypeError` never reaches the caller. The session and the wire traffic are those of the post. |
| Gateway.AddTransactionOnce | inventory-frontend/src/api.js:74-86 | `addTransaction` over the corrected dispatcher: the same catch, and it always settles. |
| Gateway.AddTransactionAgreesWithOnce | inventory-frontend/src/api.js:74-86 | Where no second 401 arrives, `addTransaction` as written and over the corrected dispatcher give the same result. |
| Gateway.AsWrittenPostNeverSettles | inventory-frontend/src/api.js:59-86 | When the access token has expired and the refresh token is revoked, a sale posted as written never settles and the session stays logged in. Over the corrected dispatcher it is rejected and the session logged out. |
| TransactionsPage.AddIngredient | inventory-frontend/src/pages/TransactionsPage.js:26-31 | Exactly one blank ingredient is appended. Existing rows, the name, the unit and the rest of the page are unchanged. |
| TransactionsPage.FindStock | inventory-frontend/src/pages/TransactionsPage.js:38 | Finds the first stock item whose id is the parsed value, and finds one exactly when any matches. |
| TransactionsPage.ChangeIngredient | inventory-frontend/src/pages/TransactionsPage.js:33-43 | Only the edited field of the row at the index changes. Changing the stock item sets the unit to that of the first item with the parsed id, or to empty when none matches. Every other row is unchanged. |
| TransactionsPage.DropIndex | inventory-frontend/src/pages/TransactionsPage.js:48 | Removes exactly the element at the index, keeping the order of the rest. The multiset loses exactly that element. An index outside the list removes nothing. |
| TransactionsPage.DeleteIngredient | inventory-frontend/src/pages/TransactionsPage.js:45-49 | Exactly the row at the index goes. The rest keep their relative order, and the multiset of rows loses exactly that one. |
| TransactionsPage.AddThenDeleteIngredient | inventory-frontend/src/pages/TransactionsPage.js:26-49 | Deleting the row just added gives back the page as it was. |
| TransactionsPage.ReplaceById | inventory-frontend/src/pages/TransactionsPage.js:56 | Same length. Every entry with the id becomes the answer and every other entry is kept. |
| TransactionsPage.RemoveId | inventory-frontend/src/pages/TransactionsPage.js:78 | Exactly the entries without the id remain, never more than before. A list with no such entry is unchanged. |
| TransactionsPage.SaveProduct | inventory-frontend/src/pages/TransactionsPage.js:52-68 | While editing: the update is sent, and on success matching entries are replaced by the answer, the list length is kept and edit mode is cleared. Otherwise: the form is posted and the answer appended. A successful save blanks the form. A failure changes only the message. |
| TransactionsPage.DeleteProductEntry | inventory-frontend/src/pages/TransactionsPage.js:75-83 | A successful delete removes every product with the id, keeps the rest as `filter` does, and changes nothing else but the message. A failure changes only the message. |
| TransactionsPage.RemoveIdIdempotent | inventory-frontend/src/pages/TransactionsPage.js:78 | Removing an id twice is removing it once. |
| TransactionsPage.RemoveIdConcat | inventory-frontend/src/pages/TransactionsPage.js:78 | Removing an id from two joined lists is removing it from each and joining the results, so the survivors keep their order. |
| TransactionsPage.DeleteProductKeepsOrder | inventory-frontend/src/pages/TransactionsPage.js:75-83 | A successful delete leaves the other products in the order they were listed. |
| TransactionsPage.SaveEditKeepsIds | inventory-frontend/src/pages/TransactionsPage.js:54-58 | Saving an edit whose answer keeps the id keeps the listed ids in order. |
| StockPage.HasName | inventory-frontend/src/pages/StockPage.js:24 | True exactly when some listed item has the name. |
| StockPage.AddItem | inventory-frontend/src/pages/StockPage.js:23-36 | A listed name shows "Barang sudah ada." and makes no call. Otherwise the item is posted. On success the form resets to blank and the list is fetched again. On failure the form is kept. |
| StockPage.ChangeItem | inventory-frontend/src/pages/StockPage.js:38-43 | Only the given field of the item at the index changes. Length and every other item are preserved. |
| StockPage.EditItem | inventory-frontend/src/pages/StockPage.js:45-60 | A non-editing item enters edit mode with no call. An editing item sends its name, parsed quantity and unit, and leaves edit mode only if the update succeeds. Other items are untouched. |
| StockPage.EditThenSaveRoundTrip | inventory-frontend/src/pages/StockPage.js:45-60 | Edit followed by a successful save restores the list and issues exactly one update and one refetch. |
| StockPage.DuplicateGuardIsLocal | inventory-frontend/src/pages/StockPage.js:10-36 | The duplicate guard reads only the list on screen. Adding the same name again before the refetch answers posts it a second time. Once the refetched list holds the name, the add is refused without a call. |
| StockPage.ChangeItemUndo | inventory-frontend/src/pages/StockPage.js:38-43 | Typing a field's old text back undoes an edit. Of two edits to the same field, the later wins. |

## Left out

- **Hashing and signing.** JWT signing and `make_password` are outside the model. A hash is the free constructor `Hashed(secret)`, so distinct passwords never collide. The token pair comes from a parameter `issue`, and authentication from a parameter `authenticated`.
- **Time.** `TruncWeek` and the server's time zone are a parameter `weekOf`; dates are integers. The dashboard's formatted `date` text is not modelled.
- **Floating point.** `FloatField` and `parseFloat` rounding are not modelled; quantities are exact `real`s.
- **The server behind the client.** It is a parameter `serve`: a pure function from the request on the wire to a response or a network error. Server state that changes between two identical requests is not modelled.
- **axios and `localStorage`.** Transport and the response object shape are left out; bodies are flat string maps. A missing refresh token is sent as a missing field rather than `null`.
- Gateway.Dispatch: the as-written recursion has no bound in the source. It is bounded by `fuel`, and `OutOfFuel` marks a call cut off before it settled. Its properties are stated for one round of the policy, and termination is not claimed.
- Gateway.Login, Gateway.AddTransaction: bounded by the same `fuel` as `Gateway.Dispatch`. A call the bound cuts off settles as `OutOfFuel`.
- Models.ReduceStockFailsIffShort: stated only for products whose ingredient rows name distinct stock items. With repeated items the loop judges later rows against the already-reduced quantity; `Models.ReduceStock` itself models that case.
- Views.ListTransactions: rows with equal dates may come in any order, since the database does not fix one. The contract states ordering and permutation only.
- TransactionsPage.ChangeIngredient: the handler mutates the row object it shares with the previous state (a shallow copy). The model treats states as values.
- StockPage.EditItem: quantities are the text typed or shown; the number the server sends is taken as its text.
- **Asynchronous UI steps.** Each handler takes the outcome of its server call as a parameter (`None` or `false` for failure). Messages are the page's `notice`. A refetched stock list arrives as a later step (`StockPage.LoadStockItems`), not inside the handler that asked for it.
- **Outside the modelled core.** `handleAddTransaction`, `handleEditProduct`, `handleDeleteItem` and the loaders run on mount are not modelled. Neither are the registration, login and profile views, the ingredient viewset, `updateProfile` and the other `api.js` wrappers. Two of their behaviours stand out. `IngredientViewSet.get_queryset` returns every user's ingredient rows (`inventory_system/main/views.py:63-64`). `LoginUserView.post` returns nothing on bad credentials, which Django answers with a server error (`inventory_system/main/views.py:37-44`). The token routes the front end calls are declared outside the modelled files. `Serializers.ValidateToken` models the serializer that `inventory_system/main/urls.py:21` serves at `api/token/`, relative to where those routes are mounted. No refresh route is declared in that file.
- **Errors and concurrency.** Response bodies and error messages beyond their kind are not modelled. Concurrent requests and database races are not modelled.

## Findings

| source | as written | input that shows it | evidently intended | confidence | as-written member | corrected member |
|---|---|---|---|---|---|---|
| inventory-frontend/src/api.js:59-72 | The `token/refresh/` post and the retried request go back through the same response interceptor. | The session holds a refresh token the server has revoked, so every `token/refresh/` request is answered 401, and any request is answered 401. The interceptor refreshes, the refresh's 401 triggers another refresh, and so on: the call never settles and `logout` never runs. | One refresh and one retry. If the refresh fails, log out and reject with the original 401. | not executed; high | Gateway.ExpiredSessionNeverLogsOut | Gateway.DispatchOnce |
| inventory_system/main/models.py:35 | The duplicate-name check runs only when `self.pk` is falsy (unset, or 0), so updates under a real key skip it. | User 7 owns item 1 "Gula" and item 2 "Garam". Saving item 2 renamed to "Gula" succeeds, and user 7 then has two "Gula" items. | Check updates too, excluding the row itself, as `Product.save` does. | not executed; high | Models.StockRenameBreaksUniqueness | Models.SaveStockItem |
| inventory_system/main/serializers.py:45-47 | `setattr(instance, 'password', value)` stores a supplied password as raw text. | A profile update with `password = "p"`. Afterwards `check_password("p")` fails, because the column holds the raw text, and the user is locked out. | Hash the password as `create` does. | not executed; medium | Serializers.PasswordUpdateLocksOut | Serializers.UpdateUser |

=== FILE: common.dfy ===
/** `Option` and `Result`, shared by every module of the model. */
module Common {

  /** A value that may be absent: Python's `None`, JavaScript's `null`/`undefined`. */
  datatype Option<+T> = None | Some(value: T) {

    /** The wrapped value, or `default` when absent (Python's `dict.get(key, default)`). */
    function GetOr(default: T): T {
      match this
      case Some(v) => v
      case None => default
    }
  }

  /** The outcome of an operation that may raise instead of returning. */
  datatype Result<+T, +E> = Ok(value: T) | Err(error: E)
}

=== FILE: gateway.dfy ===
/** The browser-side request gateway: a session store (`localStorage`), the client's
    default `Authorization` header, the request interceptor that attaches the stored
    access token, and the response interceptor that answers a 401 by refreshing the
    token and re-issuing the request. The server is a parameter `serve` from the
    request as sent to what comes back. */
module Gateway {
  import opened Common

  const UserIdKey := "userId"
  const AccessKey := "access_token"
  const RefreshKey := "refresh_token"

  const LoginUrl := "token/"
  const RefreshUrl := "token/refresh/"
  const TransactionsUrl := "transactions/"

  /** `localStorage`: string keys to string values. */
  type Store = map<string, string>

  /** A JSON object body, flattened to text values. */
  type Data = map<string, string>

  /** The session as the client holds it: the store and the client's default
      `Authorization` header. */
  datatype Client = Client(store: Store, defaultAuth: Option<string>)

  function Bearer(token: string): string {
    "Bearer " + token
  }

  /** `localStorage.getItem(key)` is truthy: present and not the empty string. */
  predicate Stored(store: Store, key: string) {
    key in store && store[key] != ""
  }

  /** Reading `response.data[key]`; a missing property is `undefined`, which `setItem`
      stores as the text "undefined". */
  function Field(data: Option<Data>, key: string): string {
    if data.Some? && key in data.value then data.value[key] else "undefined"
  }

  datatype Verb = Get | Post | Put | Delete

  /** A request: verb, path, body and `Authorization` header (if any). */
  datatype Config = Config(verb: Verb, url: string, body: Data, authorization: Option<string>)

  /** A response: status code and body (`None` for an empty, falsy body). */
  datatype Reply = Reply(status: int, data: Option<Data>)

  /** What the transport yields: a response, or none at all (a network error). */
  datatype Delivery = Delivered(reply: Reply) | Lost

  /** A rejected request: an HTTP error carrying the request and its response, the
      `TypeError` raised when the interceptor reads `error.response.status` of a network
      error, or the generic error `addTransaction` substitutes. */
  datatype Failure = StatusError(config: Config, reply: Reply) | TypeError | UnknownError

  /** How the promise of a call settles; `OutOfFuel` marks a call the fuel bound cut off
      before it settled. */
  datatype Settlement = Resolved(reply: Reply) | Rejected(failure: Failure) | OutOfFuel

  /** The client afterwards, how the call settled, and every request put on the wire, in
      order. */
  datatype Exchange = Exchange(client: Client, settlement: Settlement, sent: seq<Config>)

  /** axios' default `validateStatus`. */
  predicate Is2xx(status: int) {
    200 <= status < 300
  }

  predicate Is401(d: Delivery) {
    d.Delivered? && d.reply.status == 401
  }

  /* ---------------------------------------------------------------------------
     Session transitions
     --------------------------------------------------------------------------- */

  /** `logout`: the two tokens and the default header go; `userId` and every other key
      stay. */
  function Logout(c: Client): (r: Client)
    ensures AccessKey !in r.store && RefreshKey !in r.store && r.defaultAuth.None?
    ensures forall k :: k != AccessKey && k != RefreshKey ==>
      (k in r.store <==> k in c.store) && (k in r.store ==> r.store[k] == c.store[k])
  {
    Client(c.store - {AccessKey, RefreshKey}, None)
  }

  /** Logging out twice is logging out once. */
  lemma LogoutIdempotent(c: Client)
    ensures Logout(Logout(c)) == Logout(c)
  {
  }

  /** What `login` does with a successful response: stores the user id and both tokens
      and makes the access token the default header. */
  function StoreLogin(c: Client, data: Option<Data>): (r: Client)
    ensures r.store.Keys == c.store.Keys + {UserIdKey, AccessKey, RefreshKey}
    ensures r.store[UserIdKey] == Field(data, "user_id")
    ensures r.store[AccessKey] == Field(data, "access")
    ensures r.store[RefreshKey] == Field(data, "refresh")
    ensures forall k :: k in c.store && k !in {UserIdKey, AccessKey, RefreshKey} ==> r.store[k] == c.store[k]
    ensures r.defaultAuth == Some(Bearer(Field(data, "access")))
    ensures forall cfg: Config :: cfg.authorization.None? ==> Send(r, cfg).authorization == Some(Bearer(Field(data, "access")))
  {
    Client(c.store[UserIdKey := Field(data, "user_id")]
                  [AccessKey := Field(data, "access")]
                  [RefreshKey := Field(data, "refresh")],
           Some(Bearer(Field(data, "access"))))
  }

  /** What `refreshToken` does with a successful response: only the access token and the
      default header change, and every later request without its own header carries
      the new token. */
  function StoreAccess(c: Client, access: string): (r: Client)
    ensures r.store.Keys == c.store.Keys + {AccessKey} && r.store[AccessKey] == access
    ensures forall k :: k in c.store && k != AccessKey ==> r.store[k] == c.store[k]
    ensures r.defaultAuth == Some(Bearer(access))
    ensures forall cfg: Config :: cfg.authorization.None? ==> Send(r, cfg).authorization == Some(Bearer(access))
  {
    Client(c.store[AccessKey := access], Some(Bearer(access)))
  }

  /* ---------------------------------------------------------------------------
     Request side
     --------------------------------------------------------------------------- */

  /** axios merges the instance defaults under the request's own headers. */
  function MergeDefaults(c: Client, cfg: Config): (r: Config)
    ensures r.verb == cfg.verb && r.url == cfg.url && r.body == cfg.body
    ensures cfg.authorization.Some? ==> r == cfg
  {
    if cfg.authorization.Some? then cfg else cfg.(authorization := c.defaultAuth)
  }

  /** The request interceptor: a stored access token overrides the header; with none
      the config passes through untouched. */
  function InterceptRequest(c: Client, cfg: Config): (r: Config)
    ensures Stored(c.store, AccessKey) ==> r == cfg.(authorization := Some(Bearer(c.store[AccessKey])))
    ensures !Stored(c.store, AccessKey) ==> r == cfg
  {
    if Stored(c.store, AccessKey) then cfg.(authorization := Some(Bearer(c.store[AccessKey]))) else cfg
  }

  /** The request as it goes on the wire. */
  function Send(c: Client, cfg: Config): (r: Config)
    ensures r.verb == cfg.verb && r.url == cfg.url && r.body == cfg.body
    ensures r.authorization ==
      if Stored(c.store, AccessKey) then Some(Bearer(c.store[AccessKey]))
      else if cfg.authorization.Some? then cfg.authorization
      else c.defaultAuth
  {
    InterceptRequest(c, MergeDefaults(c, cfg))
  }

  /** After logging out, a request without its own header goes out unauthenticated. */
  lemma LoggedOutRequestsCarryNoToken(c: Client, cfg: Config)
    requires cfg.authorization.None?
    ensures Send(Logout(c), cfg) == cfg
  {
  }

  /** The body `refreshToken` posts. (A missing token is sent as a missing field.) */
  function RefreshConfig(c: Client): Config {
    Config(Post, RefreshUrl, if RefreshKey in c.store then map["refresh" := c.store[RefreshKey]] else map[], None)
  }

  /* ---------------------------------------------------------------------------
     Response side, as written: the refresh and the retry go back through the same
     interceptors, so nothing bounds the recursion; `fuel` bounds the nesting depth of
     refresh-and-retry (the refresh and the retry each get one less).
     --------------------------------------------------------------------------- */

  /** A call through the client: send, then let the response interceptor decide. */
  function Dispatch(fuel: nat, c: Client, cfg: Config, serve: Config -> Delivery): (ex: Exchange)
    ensures fuel == 0 ==> ex == Exchange(c, OutOfFuel, [])
    ensures fuel > 0 ==> |ex.sent| >= 1 && ex.sent[0] == Send(c, cfg)
    ensures fuel > 0 && serve(Send(c, cfg)).Lost? ==> ex == Exchange(c, Rejected(TypeError), [Send(c, cfg)])
    ensures fuel > 0 && serve(Send(c, cfg)).Delivered? && Is2xx(serve(Send(c, cfg)).reply.status) ==>
      ex == Exchange(c, Resolved(serve(Send(c, cfg)).reply), [Send(c, cfg)])
    ensures fuel > 0 && serve(Send(c, cfg)).Delivered? && !Is2xx(serve(Send(c, cfg)).reply.status)
              && !(Is401(serve(Send(c, cfg))) && Stored(c.store, RefreshKey)) ==>
      ex == Exchange(c, Rejected(StatusError(Send(c, cfg), serve(Send(c, cfg)).reply)), [Send(c, cfg)])
    decreases fuel, 0
  {
    if fuel == 0 then Exchange(c, OutOfFuel, [])
    else
      var req := Send(c, cfg);
      match serve(req)
      case Lost => Exchange(c, Rejected(TypeError), [req])
      case Delivered(reply) =>
        if Is2xx(reply.status) then Exchange(c, Resolved(reply), [req])
        else if reply.status == 401 && Stored(c.store, RefreshKey) then
          var refreshed := RefreshToken(fuel - 1, c, serve);
          match refreshed.settlement
          case Resolved(_) =>
            var retry := Dispatch(fuel - 1, refreshed.client, req, serve);
            Exchange(retry.client, retry.settlement, [req] + refreshed.sent + retry.sent)
          case Rejected(_) =>
            Exchange(Logout(refreshed.client), Rejected(StatusError(req, reply)), [req] + refreshed.sent)
          case OutOfFuel =>
            Exchange(refreshed.client, OutOfFuel, [req] + refreshed.sent)
        else Exchange(c, Rejected(StatusError(req, reply)), [req])
  }

  /** `refreshToken`: post the refresh token through the client; on success store the new
      access token. A failure leaves the store as the post left it. */
  function RefreshToken(fuel: nat, c: Client, serve: Config -> Delivery): (ex: Exchange)
    ensures fuel == 0 ==> ex == Exchange(c, OutOfFuel, [])
    ensures fuel > 0 ==> |ex.sent| >= 1 && ex.sent[0] == RefreshRequest(c)
    decreases fuel, 1
  {
    var posted := Dispatch(fuel, c, RefreshConfig(c), serve);
    match posted.settlement
    case Resolved(reply) => Exchange(StoreAccess(posted.client, Field(reply.data, "access")), posted.settlement, posted.sent)
    case _ => posted
  }

  /** The refresh request as it goes on the wire. */
  function RefreshRequest(c: Client): Config {
    Send(c, RefreshConfig(c))
  }

  /** The session after a successful refresh answered `reply`. */
  function Renewed(c: Client, reply: Reply): Client {
    StoreAccess(c, Field(reply.data, "access"))
  }

  /** One round of refreshing: when the refresh post itself succeeds, only the access
      token and the default header change. */
  lemma RefreshOneRound(fuel: nat, c: Client, serve: Config -> Delivery)
    requires fuel > 0
    requires serve(RefreshRequest(c)).Delivered? && Is2xx(serve(RefreshRequest(c)).reply.status)
    ensures RefreshToken(fuel, c, serve) ==
      Exchange(Renewed(c, serve(RefreshRequest(c)).reply), Resolved(serve(RefreshRequest(c)).reply), [RefreshRequest(c)])
    ensures RefreshToken(fuel, c, serve).client.store == c.store[AccessKey := Field(serve(RefreshRequest(c)).reply.data, "access")]
  {
  }

  /** One round of the 401 policy: with a refresh token stored, a 401 is followed by a
      refresh request; if that refresh is rejected the session is logged out and the
      caller sees the original 401, not the refresh error. */
  lemma {:induction false} Dispatch401OneRound(fuel: nat, c: Client, cfg: Config, serve: Config -> Delivery)
    requires fuel >= 2
    requires Is401(serve(Send(c, cfg))) && Stored(c.store, RefreshKey)
    ensures |Dispatch(fuel, c, cfg, serve).sent| >= 2
    ensures Dispatch(fuel, c, cfg, serve).sent[1] == RefreshRequest(c)
    ensures serve(RefreshRequest(c)).Lost? || (serve(RefreshRequest(c)).Delivered? &&
              !Is2xx(serve(RefreshRequest(c)).reply.status) && !Is401(serve(RefreshRequest(c)))) ==>
      Dispatch(fuel, c, cfg, serve) ==
        Exchange(Logout(c), Rejected(StatusError(Send(c, cfg), serve(Send(c, cfg)).reply)), [Send(c, cfg), RefreshRequest(c)])
  {
    var refreshed := RefreshToken(fuel - 1, c, serve);
    assert refreshed.sent[0] == RefreshRequest(c);
    var posted := Dispatch(fuel - 1, c, RefreshConfig(c), serve);
    if serve(RefreshRequest(c)).Lost? || (serve(RefreshRequest(c)).Delivered? &&
        !Is2xx(serve(RefreshRequest(c)).reply.status) && !Is401(serve(RefreshRequest(c)))) {
      assert posted.client == c && |posted.sent| == 1;
      assert refreshed == posted;
    }
  }

  /** The server has revoked the refresh token: it answers every refresh with 401. */
  ghost predicate RejectsRefresh(serve: Config -> Delivery) {
    forall cfg: Config :: cfg.url == RefreshUrl ==> Is401(serve(cfg))
  }

  /** With a revoked refresh token, `refreshToken` never settles: its 401 re-enters the
      interceptor, which refreshes again, whatever the fuel. */
  lemma {:induction false} RefreshNeverSettles(fuel: nat, c: Client, serve: Config -> Delivery)
    requires Stored(c.store, RefreshKey) && RejectsRefresh(serve)
    ensures RefreshToken(fuel, c, serve).settlement.OutOfFuel?
    ensures RefreshToken(fuel, c, serve).client == c
    decreases fuel
  {
    if fuel > 0 {
      assert Is401(serve(RefreshRequest(c)));
      RefreshNeverSettles(fuel - 1, c, serve);
    }
  }

  /** As written, an expired session whose refresh token was revoked is never logged
      out and its request never settles: for every fuel bound the call is still
      refreshing when the bound cuts it off, and the session is untouched. */
  lemma ExpiredSessionNeverLogsOut(fuel: nat, c: Client, cfg: Config, serve: Config -> Delivery)
    requires Stored(c.store, RefreshKey) && RejectsRefresh(serve)
    requires Is401(serve(Send(c, cfg)))
    ensures Dispatch(fuel, c, cfg, serve).settlement.OutOfFuel?
    ensures Dispatch(fuel, c, cfg, serve).client == c
  {
    if fuel > 0 {
      RefreshNeverSettles(fuel - 1, c, serve);
    }
  }

  /* ---------------------------------------------------------------------------
     Response side, corrected: the refresh post and the retry are issued once each and
     do not re-enter the 401 handler.
     --------------------------------------------------------------------------- */

  /** One request with at most one refresh and one retry. A refresh that fails in any way
      logs the session out and rejects with the original 401. */
  function DispatchOnce(c: Client, cfg: Config, serve: Config -> Delivery): (ex: Exchange)
    ensures |ex.sent| >= 1 && ex.sent[0] == Send(c, cfg) && !ex.settlement.OutOfFuel?
    ensures serve(Send(c, cfg)).Lost? ==> ex == Exchange(c, Rejected(TypeError), [Send(c, cfg)])
    ensures serve(Send(c, cfg)).Delivered? && Is2xx(serve(Send(c, cfg)).reply.status) ==>
      ex == Exchange(c, Resolved(serve(Send(c, cfg)).reply), [Send(c, cfg)])
    ensures serve(Send(c, cfg)).Delivered? && !Is2xx(serve(Send(c, cfg)).reply.status)
              && !(Is401(serve(Send(c, cfg))) && Stored(c.store, RefreshKey)) ==>
      ex == Exchange(c, Rejected(StatusError(Send(c, cfg), serve(Send(c, cfg)).reply)), [Send(c, cfg)])
    ensures Is401(serve(Send(c, cfg))) && Stored(c.store, RefreshKey) ==>
      && |ex.sent| >= 2 && ex.sent[1] == RefreshRequest(c)
      && (!(serve(RefreshRequest(c)).Delivered? && Is2xx(serve(RefreshRequest(c)).reply.status)) ==>
            ex == Exchange(Logout(c), Rejected(StatusError(Send(c, cfg), serve(Send(c, cfg)).reply)),
                           [Send(c, cfg), RefreshRequest(c)]))
      && (serve(RefreshRequest(c)).Delivered? && Is2xx(serve(RefreshRequest(c)).reply.status) ==>
            && ex.client == Renewed(c, serve(RefreshRequest(c)).reply)
            && |ex.sent| == 3
            && ex.sent[2] == Send(ex.client, Send(c, cfg))
            && (serve(ex.sent[2]).Lost? ==> ex.settlement == Rejected(TypeError))
            && (serve(ex.sent[2]).Delivered? ==>
                  ex.settlement == if Is2xx(serve(ex.sent[2]).reply.status) then Resolved(serve(ex.sent[2]).reply)
                                   else Rejected(StatusError(ex.sent[2], serve(ex.sent[2]).reply))))
  {
    var req := Send(c, cfg);
    match serve(req)
    case Lost => Exchange(c, Rejected(TypeError), [req])
    case Delivered(reply) =>
      if Is2xx(reply.status) then Exchange(c, Resolved(reply), [req])
      else if reply.status == 401 && Stored(c.store, RefreshKey) then
        var refresh := RefreshRequest(c);
        match serve(refresh)
        case Delivered(answer) =>
          if Is2xx(answer.status) then
            var renewed := Renewed(c, answer);
            var again := Send(renewed, req);
            var last := match serve(again)
              case Lost => Rejected(TypeError)
              case Delivered(r) => if Is2xx(r.status) then Resolved(r) else Rejected(StatusError(again, r));
            Exchange(renewed, last, [req, refresh, again])
          else Exchange(Logout(c), Rejected(StatusError(req, reply)), [req, refresh])
        case Lost => Exchange(Logout(c), Rejected(StatusError(req, reply)), [req, refresh])
      else Exchange(c, Rejected(StatusError(req, reply)), [req])
  }

  /** The server answers 401 at most to the original request: neither the refresh post
      nor the retry after a successful refresh is answered 401. */
  predicate SingleRefresh(c: Client, cfg: Config, serve: Config -> Delivery) {
    var answer := serve(RefreshRequest(c));
    && !Is401(answer)
    && (answer.Delivered? && Is2xx(answer.reply.status) ==>
          !Is401(serve(Send(Renewed(c, answer.reply), Send(c, cfg)))))
  }

  /** Where no second 401 arrives, the code as written and the corrected dispatcher do the
      same thing, given fuel for the original request, the refresh and the retry. */
  lemma {:induction false} DispatchAgreesWithOnce(fuel: nat, c: Client, cfg: Config, serve: Config -> Delivery)
    requires fuel >= 2
    requires SingleRefresh(c, cfg, serve)
    ensures Dispatch(fuel, c, cfg, serve) == DispatchOnce(c, cfg, serve)
  {
    var req := Send(c, cfg);
    if Is401(serve(req)) && Stored(c.store, RefreshKey) {
      var answer := serve(RefreshRequest(c));
      var refreshed := RefreshToken(fuel - 1, c, serve);
      if answer.Delivered? && Is2xx(answer.reply.status) {
        RefreshOneRound(fuel - 1, c, serve);
        var renewed := Renewed(c, answer.reply);
        assert refreshed == Exchange(renewed, Resolved(answer.reply), [RefreshRequest(c)]);
        assert Stored(renewed.store, RefreshKey);
        var retry := Dispatch(fuel - 1, renewed, req, serve);
        assert |retry.sent| == 1 && retry.client == renewed;
      } else {
        Dispatch401OneRound(fuel, c, cfg, serve);
      }
    }
  }

  /* ---------------------------------------------------------------------------
     Calls
     --------------------------------------------------------------------------- */

  /** The body `login` posts. */
  function LoginConfig(credentials: Data): Config {
    Config(Post, LoginUrl, credentials, None)
  }

  /** What `login` does once its post has settled: a success stores the session. */
  function SettleLogin(raw: Exchange): Exchange {
    match raw.settlement
    case Resolved(reply) => Exchange(StoreLogin(raw.client, reply.data), raw.settlement, raw.sent)
    case _ => raw
  }

  /** `login` as written: the post goes through the client, 401 handler included; on
      success the session is stored. */
  function Login(fuel: nat, c: Client, credentials: Data, serve: Config -> Delivery): (ex: Exchange)
    ensures var raw := Dispatch(fuel, c, LoginConfig(credentials), serve);
      && ex.settlement == raw.settlement && ex.sent == raw.sent
      && (raw.settlement.Resolved? ==> ex.client == StoreLogin(raw.client, raw.settlement.reply.data))
      && (!raw.settlement.Resolved? ==> ex.client == raw.client)
    ensures var first := serve(Send(c, LoginConfig(credentials)));
      fuel > 0 && first.Delivered? && Is2xx(first.reply.status) ==>
        ex == Exchange(StoreLogin(c, first.reply.data), Resolved(first.reply), [Send(c, LoginConfig(credentials))])
  {
    SettleLogin(Dispatch(fuel, c, LoginConfig(credentials), serve))
  }

  /** `login` over the corrected dispatcher: it always settles. */
  function LoginOnce(c: Client, credentials: Data, serve: Config -> Delivery): (ex: Exchange)
    ensures var raw := DispatchOnce(c, LoginConfig(credentials), serve);
      && ex.settlement == raw.settlement && ex.sent == raw.sent
      && (raw.settlement.Resolved? ==> ex.client == StoreLogin(raw.client, raw.settlement.reply.data))
      && (!raw.settlement.Resolved? ==> ex.client == raw.client)
    ensures !ex.settlement.OutOfFuel?
  {
    SettleLogin(DispatchOnce(c, LoginConfig(credentials), serve))
  }

  /** Where no second 401 arrives, `login` as written and over the corrected dispatcher
      agree. */
  lemma LoginAgreesWithOnce(fuel: nat, c: Client, credentials: Data, serve: Config -> Delivery)
    requires fuel >= 2
    requires SingleRefresh(c, LoginConfig(credentials), serve)
    ensures Login(fuel, c, credentials, serve) == LoginOnce(c, credentials, serve)
  {
    DispatchAgreesWithOnce(fuel, c, LoginConfig(credentials), serve);
  }

  /** After a successful login the store holds the response's user id and tokens, and the
      next request without its own header carries the new access token. */
  lemma LoginStoresSession(fuel: nat, c: Client, credentials: Data, serve: Config -> Delivery, next: Config)
    requires Login(fuel, c, credentials, serve).settlement.Resolved?
    requires next.authorization.None?
    ensures var ex := Login(fuel, c, credentials, serve);
      var data := ex.settlement.reply.data;
      && ex.client.store[UserIdKey] == Field(data, "user_id")
      && ex.client.store[AccessKey] == Field(data, "access")
      && ex.client.store[RefreshKey] == Field(data, "refresh")
      && ex.client.defaultAuth == Some(Bearer(Field(data, "access")))
      && Send(ex.client, next).authorization == Some(Bearer(Field(data, "access")))
  {
  }

  /** The server refuses every login post with 401. */
  ghost predicate RejectsLogin(serve: Config -> Delivery) {
    forall cfg: Config :: cfg.url == LoginUrl ==> Is401(serve(cfg))
  }

  /** The server grants every refresh. */
  ghost predicate GrantsRefresh(serve: Config -> Delivery) {
    forall cfg: Config :: cfg.url == RefreshUrl ==> serve(cfg).Delivered? && Is2xx(serve(cfg).reply.status)
  }

  /** A request to a path the server always answers with 401, sent while refreshes are
      granted, is refreshed and retried without end: whatever the fuel, the call is still
      going when the bound cuts it off. */
  lemma {:induction false} RenewedRequestNeverSettles(fuel: nat, c: Client, cfg: Config, serve: Config -> Delivery)
    requires Stored(c.store, RefreshKey) && GrantsRefresh(serve)
    requires forall d: Config :: d.url == cfg.url ==> Is401(serve(d))
    ensures Dispatch(fuel, c, cfg, serve).settlement.OutOfFuel?
    decreases fuel
  {
    if fuel > 1 {
      var req := Send(c, cfg);
      assert Is401(serve(req));
      RefreshOneRound(fuel - 1, c, serve);
      var renewed := Renewed(c, serve(RefreshRequest(c)).reply);
      assert Stored(renewed.store, RefreshKey);
      RenewedRequestNeverSettles(fuel - 1, renewed, req, serve);
    }
  }

  /** As written, wrong credentials typed while a valid refresh token is still stored make
      `login` refresh and post `token/` again without end; over the corrected dispatcher
      the same login is rejected after one retry. */
  lemma AsWrittenLoginLoops(fuel: nat, c: Client, credentials: Data, serve: Config -> Delivery)
    requires Stored(c.store, RefreshKey) && RejectsLogin(serve) && GrantsRefresh(serve)
    ensures Login(fuel, c, credentials, serve).settlement.OutOfFuel?
    ensures LoginOnce(c, credentials, serve).settlement.Rejected?
  {
    RenewedRequestNeverSettles(fuel, c, LoginConfig(credentials), serve);
    var req := Send(c, LoginConfig(credentials));
    assert Is401(serve(req));
    var renewed := Renewed(c, serve(RefreshRequest(c)).reply);
    assert Is401(serve(Send(renewed, req)));
  }

  /** `addTransaction`'s catch: an error with a response body is rethrown as it is; any
      other becomes the generic error. */
  function Rethrow(f: Failure): (r: Failure)
    ensures r == f <==> (f.StatusError? && f.reply.data.Some?) || f.UnknownError?
    ensures r != f ==> r == UnknownError
  {
    if f.StatusError? && f.reply.data.Some? then f else UnknownError
  }

  /** Rethrowing what the catch already rethrew changes nothing: the filter is a
      projection onto the errors the page can read. */
  lemma RethrowIdempotent(f: Failure)
    ensures Rethrow(Rethrow(f)) == Rethrow(f)
    ensures Rethrow(f).UnknownError? || (Rethrow(f).StatusError? && Rethrow(f).reply.data.Some?)
  {
  }

  /** The body `addTransaction` posts. */
  function SaleConfig(sale: Data): Config {
    Config(Post, TransactionsUrl, sale, None)
  }

  /** What `addTransaction` does once its post has settled: failures go through the catch. */
  function SettleSale(raw: Exchange): Exchange {
    match raw.settlement
    case Rejected(f) => Exchange(raw.client, Rejected(Rethrow(f)), raw.sent)
    case _ => raw
  }

  /** `addTransaction` as written: post the sale through the client, 401 handler included;
      a success passes through, a failure is filtered by the catch, so the caller never
      sees the interceptor's `TypeError`. */
  function AddTransaction(fuel: nat, c: Client, sale: Data, serve: Config -> Delivery): (ex: Exchange)
    ensures var raw := Dispatch(fuel, c, SaleConfig(sale), serve);
      && ex.client == raw.client && ex.sent == raw.sent
      && (raw.settlement.Resolved? ==> ex.settlement == raw.settlement)
      && (raw.settlement.OutOfFuel? ==> ex.settlement.OutOfFuel?)
      && (raw.settlement.Rejected? && raw.settlement.failure.StatusError? && raw.settlement.failure.reply.data.Some? ==>
            ex.settlement == raw.settlement)
      && (raw.settlement.Rejected? && !(raw.settlement.failure.StatusError? && raw.settlement.failure.reply.data.Some?) ==>
            ex.settlement == Rejected(UnknownError))
    ensures ex.settlement.Rejected? ==>
      ex.settlement.failure.UnknownError? || (ex.settlement.failure.StatusError? && ex.settlement.failure.reply.data.Some?)
  {
    SettleSale(Dispatch(fuel, c, SaleConfig(sale), serve))
  }

  /** `addTransaction` over the corrected dispatcher: it always settles. */
  function AddTransactionOnce(c: Client, sale: Data, serve: Config -> Delivery): (ex: Exchange)
    ensures var raw := DispatchOnce(c, SaleConfig(sale), serve);
      && ex.client == raw.client && ex.sent == raw.sent
      && (raw.settlement.Resolved? ==> ex.settlement == raw.settlement)
      && (raw.settlement.Rejected? ==> ex.settlement == Rejected(Rethrow(raw.settlement.failure)))
    ensures !ex.settlement.OutOfFuel?
  {
    SettleSale(DispatchOnce(c, SaleConfig(sale), serve))
  }

  /** Where no second 401 arrives, `addTransaction` as written and over the corrected
      dispatcher agree. */
  lemma AddTransactionAgreesWithOnce(fuel: nat, c: Client, sale: Data, serve: Config -> Delivery)
    requires fuel >= 2
    requires SingleRefresh(c, SaleConfig(sale), serve)
    ensures AddTransaction(fuel, c, sale, serve) == AddTransactionOnce(c, sale, serve)
  {
    DispatchAgreesWithOnce(fuel, c, SaleConfig(sale), serve);
  }

  /** As written, a sale posted with an expired access token while the server has revoked
      the refresh token never settles and leaves the session logged in; over the
      corrected dispatcher it is rejected and the session is logged out. */
  lemma AsWrittenPostNeverSettles(fuel: nat, c: Client, sale: Data, serve: Config -> Delivery)
    requires Stored(c.store, RefreshKey) && RejectsRefresh(serve)
    requires Is401(serve(Send(c, SaleConfig(sale))))
    ensures AddTransaction(fuel, c, sale, serve).settlement.OutOfFuel?
    ensures AddTransaction(fuel, c, sale, serve).client == c
    ensures AddTransactionOnce(c, sale, serve).settlement.Rejected?
    ensures AddTransactionOnce(c, sale, serve).client == Logout(c)
  {
    ExpiredSessionNeverLogsOut(fuel, c, SaleConfig(sale), serve);
    assert Is401(serve(RefreshRequest(c)));
  }
}

=== FILE: models.dfy ===
/** The Django models of the inventory back end: stock items, products with their
    ingredients, sales transactions and users; the duplicate-name checks their `save`
    methods perform; and the stock bookkeeping a sale triggers (`reduce_stock`,
    `reverse_stock`, `delete`). Tables are immutable values; a failed atomic block
    returns an error and no new table. */
module Models {
  import opened Common

  /** Primary keys. One counter hands out fresh keys for every table. */
  type Id = nat

  datatype StockItem = StockItem(name: string, quantity: real, unit: string, owner: Id)

  datatype Product = Product(name: string, unit: string, owner: Id)

  /** A row of `ProductIngredient`: `quantityRequired` units of a stock item per unit sold. */
  datatype Ingredient = Ingredient(product: Id, stockItem: Id, quantityRequired: real)

  /** A recorded sale; `date` is the creation timestamp (`auto_now_add`). */
  datatype Transaction = Transaction(id: Id, product: Id, quantitySold: real, date: int, owner: Id)

  /** The password column. `Hashed(s)` stands for `make_password(s)`: hashing is modelled
      as a free, collision-free constructor. `Plain(t)` is a raw string written into the
      column without hashing; `Unusable` is what `set_password(None)` stores. */
  datatype Password = Hashed(secret: string) | Plain(text: string) | Unusable

  datatype User = User(
    username: string,
    password: Password,
    email: string,
    phoneNumber: string,
    address: string,
    businessName: string,
    profilePicture: Option<string>)

  /** `check_password`: only a hashed column can match; a raw string in the column is
      not a recognised hash, and a missing candidate never matches. */
  function CheckPassword(candidate: Option<string>, stored: Password): (b: bool)
    ensures b <==> candidate.Some? && stored == SetPassword(candidate)
  {
    match stored
    case Hashed(secret) => candidate == Some(secret)
    case Plain(_) => false
    case Unusable => false
  }

  /** `set_password`: hash the new password, or mark the column unusable for `None`. */
  function SetPassword(raw: Option<string>): (r: Password)
    ensures !r.Plain?
    ensures r.Hashed? <==> raw.Some?
  {
    match raw
    case Some(p) => Hashed(p)
    case None => Unusable
  }

  /** Setting a password and then checking a candidate accepts exactly the password that
      was set, and nothing at all after `set_password(None)`. */
  lemma SetThenCheck(raw: Option<string>, candidate: Option<string>)
    ensures CheckPassword(candidate, SetPassword(raw)) <==> raw.Some? && candidate == raw
  {
  }

  /** The database. Ingredients and transactions are kept in primary-key order. The
      queries iterating them fix no order; the model chooses this one, which matters
      only for which error is reported when a product repeats a stock item. */
  datatype Db = Db(
    users: map<Id, User>,
    stock: map<Id, StockItem>,
    products: map<Id, Product>,
    ingredients: seq<Ingredient>,
    transactions: seq<Transaction>,
    nextId: Id)

  /** The `ValidationError`s raised by the models, and the lookup failure of a dangling
      stock-item reference. */
  datatype ModelError =
    | DuplicateStockItem(name: string)
    | DuplicateProduct(name: string)
    | InsufficientStock(name: string, required: real, available: real)
    | MissingStockItem(id: Id)

  /** Every key handed out so far is below `nextId`, so `nextId` is fresh everywhere.
      Keys start at 1, as an auto-increment primary key does. */
  ghost predicate Valid(db: Db) {
    && db.nextId >= 1
    && (forall k :: k in db.users ==> k < db.nextId)
    && (forall k :: k in db.stock ==> k < db.nextId)
    && (forall k :: k in db.products ==> k < db.nextId)
    && (forall i :: 0 <= i < |db.ingredients| ==> db.ingredients[i].product < db.nextId)
    && (forall i :: 0 <= i < |db.transactions| ==> db.transactions[i].id < db.nextId)
  }

  /** Replacing stock quantities, with the same keys, keeps a valid database valid. */
  lemma ValidWithStock(db: Db, stock: map<Id, StockItem>)
    requires Valid(db) && stock.Keys == db.stock.Keys
    ensures Valid(db.(stock := stock))
  {
  }

  /* ---------------------------------------------------------------------------
     Duplicate names
     --------------------------------------------------------------------------- */

  /** Does `owner` hold a stock item called `name` in a row other than `except`? */
  predicate StockNameTaken(stock: map<Id, StockItem>, name: string, owner: Id, except: Option<Id>) {
    exists k :: k in stock && stock[k].name == name && stock[k].owner == owner && except != Some(k)
  }

  /** No user holds two stock items of the same name. */
  ghost predicate StockNamesUnique(stock: map<Id, StockItem>) {
    forall a, b :: a in stock && b in stock && a != b && stock[a].owner == stock[b].owner ==>
      stock[a].name != stock[b].name
  }

  /** A row written by `save`, and the key it was written under. */
  datatype Saved = Saved(db: Db, id: Id)

  /** The INSERT (no pk: the next key) or UPDATE (pk given) that `Model.save` performs. */
  function StoreStockItem(db: Db, pk: Option<Id>, item: StockItem): Saved {
    match pk
    case Some(k) => Saved(db.(stock := db.stock[k := item]), k)
    case None => Saved(db.(stock := db.stock[db.nextId := item], nextId := db.nextId + 1), db.nextId)
  }

  /** Python's `not self.pk`: no primary key, or the falsy key 0. */
  predicate Unsaved(pk: Option<Id>) {
    pk.None? || pk == Some(0)
  }

  /** `StockItem.save` as written: the duplicate check runs only for a row whose primary
      key is falsy, and it does not exclude the row itself; so an update may rename an
      item onto a name already in use. */
  function SaveStockItemAsWritten(db: Db, pk: Option<Id>, item: StockItem): (r: Result<Saved, ModelError>)
    ensures r.Err? <==> Unsaved(pk) && StockNameTaken(db.stock, item.name, item.owner, None)
    ensures r.Err? ==> r.error == DuplicateStockItem(item.name)
    ensures r.Ok? ==> r.value.db == db.(stock := db.stock[r.value.id := item], nextId := r.value.db.nextId)
    ensures r.Ok? && pk.Some? ==> r.value.id == pk.value && r.value.db.nextId == db.nextId
    ensures r.Ok? && pk.None? ==> r.value.id == db.nextId && r.value.db.nextId == db.nextId + 1
    ensures r.Ok? && pk.None? && Valid(db) ==> r.value.id !in db.stock && Valid(r.value.db)
  {
    if Unsaved(pk) && StockNameTaken(db.stock, item.name, item.owner, None) then
      Err(DuplicateStockItem(item.name))
    else
      Ok(StoreStockItem(db, pk, item))
  }

  /** `StockItem.save` with the check applied to updates as well, excluding the row itself
      (the rule `Product.save` follows). On inserts it is exactly the code as written. */
  function SaveStockItem(db: Db, pk: Option<Id>, item: StockItem): (r: Result<Saved, ModelError>)
    ensures r.Err? <==> StockNameTaken(db.stock, item.name, item.owner, pk)
    ensures pk.None? ==> r == SaveStockItemAsWritten(db, pk, item)
    ensures r.Ok? ==> r.value.db == db.(stock := db.stock[r.value.id := item], nextId := r.value.db.nextId)
    ensures r.Ok? && pk.Some? ==> r.value.id == pk.value && r.value.db.nextId == db.nextId
    ensures r.Ok? && pk.None? ==> r.value.id == db.nextId && r.value.db.nextId == db.nextId + 1
    ensures r.Ok? && pk.None? && Valid(db) ==> r.value.id !in db.stock && Valid(r.value.db)
  {
    if StockNameTaken(db.stock, item.name, item.owner, pk) then
      Err(DuplicateStockItem(item.name))
    else
      Ok(StoreStockItem(db, pk, item))
  }

  /** A successful save under the corrected rule keeps stock names unique per user. */
  lemma SaveStockItemKeepsNamesUnique(db: Db, pk: Option<Id>, item: StockItem)
    requires Valid(db) && StockNamesUnique(db.stock)
    ensures SaveStockItem(db, pk, item).Ok? ==> StockNamesUnique(SaveStockItem(db, pk, item).value.db.stock)
  {
    var r := SaveStockItem(db, pk, item);
    if r.Ok? {
      var s := r.value;
      var st := s.db.stock;
      forall a, b | a in st && b in st && a != b && st[a].owner == st[b].owner
        ensures st[a].name != st[b].name
      {
        if a == s.id {
          assert b in db.stock && Some(b) != pk;
        } else if b == s.id {
          assert a in db.stock && Some(a) != pk;
        }
      }
    }
  }

  /** The code as written accepts a rename onto a name the same user already has: item 2
      ("Garam") renamed to "Gula" is saved next to item 1 ("Gula") of the same owner,
      whereas the corrected rule rejects the rename. */
  lemma StockRenameBreaksUniqueness()
    ensures
      var db := Db(map[], map[1 := StockItem("Gula", 5.0, "kg", 7), 2 := StockItem("Garam", 3.0, "kg", 7)],
                   map[], [], [], 3);
      var renamed := StockItem("Gula", 3.0, "kg", 7);
      var r := SaveStockItemAsWritten(db, Some(2), renamed);
      && StockNamesUnique(db.stock)
      && r.Ok?
      && !StockNamesUnique(r.value.db.stock)
      && SaveStockItem(db, Some(2), renamed).Err?
  {
    var db := Db(map[], map[1 := StockItem("Gula", 5.0, "kg", 7), 2 := StockItem("Garam", 3.0, "kg", 7)],
                 map[], [], [], 3);
    var renamed := StockItem("Gula", 3.0, "kg", 7);
    var st := SaveStockItemAsWritten(db, Some(2), renamed).value.db.stock;
    assert st[1].name == st[2].name;
    assert db.stock[1].name == "Gula" && 1 != Some(2).value;
  }

  /** Does `owner` hold a product called `name` in a row other than `except`? */
  predicate ProductNameTaken(products: map<Id, Product>, name: string, owner: Id, except: Option<Id>) {
    exists k :: k in products && products[k].name == name && products[k].owner == owner && except != Some(k)
  }

  /** No user holds two products of the same name. */
  ghost predicate ProductNamesUnique(products: map<Id, Product>) {
    forall a, b :: a in products && b in products && a != b && products[a].owner == products[b].owner ==>
      products[a].name != products[b].name
  }

  /** `Product.save`: rejected when another row of the same user has the name; the row
      itself is excluded, so a product may be re-saved under its own name. */
  function SaveProduct(db: Db, pk: Option<Id>, product: Product): (r: Result<Saved, ModelError>)
    ensures r.Err? <==> ProductNameTaken(db.products, product.name, product.owner, pk)
    ensures r.Err? ==> r.error == DuplicateProduct(product.name)
    ensures r.Ok? ==> r.value.db == db.(products := db.products[r.value.id := product], nextId := r.value.db.nextId)
    ensures r.Ok? && pk.Some? ==> r.value.id == pk.value && r.value.db.nextId == db.nextId
    ensures r.Ok? && pk.None? ==> r.value.id == db.nextId && r.value.db.nextId == db.nextId + 1
    ensures r.Ok? && pk.None? && Valid(db) ==> r.value.id !in db.products && Valid(r.value.db)
  {
    if ProductNameTaken(db.products, product.name, product.owner, pk) then
      Err(DuplicateProduct(product.name))
    else
      match pk
      case Some(k) => Ok(Saved(db.(products := db.products[k := product]), k))
      case None => Ok(Saved(db.(products := db.products[db.nextId := product], nextId := db.nextId + 1), db.nextId))
  }

  /** A successful `Product.save` keeps product names unique per user. */
  lemma SaveProductKeepsNamesUnique(db: Db, pk: Option<Id>, product: Product)
    requires Valid(db) && ProductNamesUnique(db.products)
    ensures SaveProduct(db, pk, product).Ok? ==> ProductNamesUnique(SaveProduct(db, pk, product).value.db.products)
  {
    var r := SaveProduct(db, pk, product);
    if r.Ok? {
      var s := r.value;
      var ps := s.db.products;
      forall a, b | a in ps && b in ps && a != b && ps[a].owner == ps[b].owner
        ensures ps[a].name != ps[b].name
      {
        if a == s.id {
          assert b in db.products && Some(b) != pk;
        } else if b == s.id {
          assert a in db.products && Some(a) != pk;
        }
      }
    }
  }

  /** Re-saving a product under its own name and owner is accepted. */
  lemma ResaveUnderOwnName(db: Db, pk: Id, product: Product)
    requires ProductNamesUnique(db.products)
    requires pk in db.products
    requires product.name == db.products[pk].name && product.owner == db.products[pk].owner
    ensures SaveProduct(db, Some(pk), product).Ok?
  {
  }

  /* ---------------------------------------------------------------------------
     Stock bookkeeping of a sale
     --------------------------------------------------------------------------- */

  /** The ingredient rows of `product`, in table order (`product.ingredients.all()`). */
  function IngredientsOf(ings: seq<Ingredient>, product: Id): (r: seq<Ingredient>)
    ensures forall x :: x in r <==> x in ings && x.product == product
  {
    if |ings| == 0 then []
    else (if ings[0].product == product then [ings[0]] else []) + IngredientsOf(ings[1..], product)
  }

  /** `IngredientsOf` distributes over concatenation of tables. */
  lemma {:induction false} IngredientsOfAppend(a: seq<Ingredient>, b: seq<Ingredient>, product: Id)
    ensures IngredientsOf(a + b, product) == IngredientsOf(a, product) + IngredientsOf(b, product)
    decreases |a|
  {
    if |a| > 0 {
      assert (a + b)[0] == a[0] && (a + b)[1..] == a[1..] + b;
      IngredientsOfAppend(a[1..], b, product);
      var h := if a[0].product == product then [a[0]] else [];
      assert IngredientsOf(a + b, product) == h + IngredientsOf(a[1..] + b, product);
    } else {
      assert a + b == b;
    }
  }

  /** A product no row refers to has no ingredients. */
  lemma {:induction false} IngredientsOfNone(ings: seq<Ingredient>, product: Id)
    requires forall i :: 0 <= i < |ings| ==> ings[i].product != product
    ensures IngredientsOf(ings, product) == []
    decreases |ings|
  {
    if |ings| > 0 {
      assert forall i :: 0 <= i < |ings| - 1 ==> ings[1..][i] == ings[i + 1];
      IngredientsOfNone(ings[1..], product);
    }
  }

  /** A table whose rows all belong to `product` is its own ingredient list. */
  lemma {:induction false} IngredientsOfAll(ings: seq<Ingredient>, product: Id)
    requires forall i :: 0 <= i < |ings| ==> ings[i].product == product
    ensures IngredientsOf(ings, product) == ings
    decreases |ings|
  {
    if |ings| > 0 {
      assert forall i :: 0 <= i < |ings| - 1 ==> ings[1..][i] == ings[i + 1];
      IngredientsOfAll(ings[1..], product);
      assert ings == [ings[0]] + ings[1..];
    }
  }

  /** The table without the rows of `product` (`product.ingredients.all().delete()`). */
  function DropIngredientsOf(ings: seq<Ingredient>, product: Id): (r: seq<Ingredient>)
    ensures forall i :: 0 <= i < |r| ==> r[i].product != product
    ensures forall q :: q != product ==> IngredientsOf(r, q) == IngredientsOf(ings, q)
    ensures forall x :: x in r ==> x in ings
  {
    if |ings| == 0 then []
    else
      var rest := DropIngredientsOf(ings[1..], product);
      var r := (if ings[0].product == product then [] else [ings[0]]) + rest;
      forall q | q != product ensures IngredientsOf(r, q) == IngredientsOf(ings, q) {
        IngredientsOfAppend(if ings[0].product == product then [] else [ings[0]], rest, q);
      }
      r
  }

  /** Reference definition: the total amount a sale of `sold` units draws from stock item
      `k`, summed over every ingredient row that names `k`. */
  function Consumed(ings: seq<Ingredient>, sold: real, k: Id): real {
    if |ings| == 0 then 0.0
    else (if ings[0].stockItem == k then ings[0].quantityRequired * sold else 0.0) + Consumed(ings[1..], sold, k)
  }

  /** Each ingredient row names a different stock item. */
  ghost predicate DistinctStockItems(ings: seq<Ingredient>) {
    forall i, j :: 0 <= i < j < |ings| ==> ings[i].stockItem != ings[j].stockItem
  }

  /** The stock item ingredient `ing` names is missing or holds less than the sale needs. */
  predicate Short(stock: map<Id, StockItem>, ing: Ingredient, sold: real) {
    ing.stockItem !in stock || stock[ing.stockItem].quantity < ing.quantityRequired * sold
  }

  /** One iteration of the `reduce_stock` loop: raise if the item is short, else subtract. */
  function Draw(stock: map<Id, StockItem>, ing: Ingredient, sold: real): Result<map<Id, StockItem>, ModelError> {
    var required := ing.quantityRequired * sold;
    if ing.stockItem !in stock then Err(MissingStockItem(ing.stockItem))
    else
      var item := stock[ing.stockItem];
      if item.quantity < required then Err(InsufficientStock(item.name, required, item.quantity))
      else Ok(stock[ing.stockItem := item.(quantity := item.quantity - required)])
  }

  /** The loop of `Transaction.reduce_stock`: for each ingredient in turn, re-read the stock
      item, raise when it holds less than `quantity_required * quantity_sold`, otherwise
      subtract that amount. On success every stock item has lost exactly what the sale
      consumes of it; on failure the caller's atomic block discards every change. */
  function ReduceStock(stock: map<Id, StockItem>, ings: seq<Ingredient>, sold: real): (r: Result<map<Id, StockItem>, ModelError>)
    decreases |ings|
    ensures r.Ok? ==> r.value.Keys == stock.Keys
    ensures r.Ok? ==> forall i :: 0 <= i < |ings| ==> ings[i].stockItem in stock
    ensures r.Ok? ==> forall k :: k in stock ==>
      r.value[k] == stock[k].(quantity := stock[k].quantity - Consumed(ings, sold, k))
    ensures r.Err? ==> r.error.InsufficientStock? || (r.error.MissingStockItem? && r.error.id !in stock)
    ensures r.Err? && r.error.InsufficientStock? ==> r.error.available < r.error.required
  {
    if |ings| == 0 then Ok(stock)
    else
      match Draw(stock, ings[0], sold)
      case Err(e) => Err(e)
      case Ok(stock1) => ReduceStock(stock1, ings[1..], sold)
  }

  /** Some ingredient row names stock item `k`. */
  ghost predicate Touches(ings: seq<Ingredient>, k: Id) {
    exists i :: 0 <= i < |ings| && ings[i].stockItem == k
  }

  /** A successful `reduce_stock` leaves every stock item it touched at zero or more, and
      never drives a non-negative quantity below zero. */
  lemma {:induction false} ReduceStockKeepsNonNegative(stock: map<Id, StockItem>, ings: seq<Ingredient>, sold: real)
    ensures ReduceStock(stock, ings, sold).Ok? ==>
      forall k :: k in stock && (stock[k].quantity >= 0.0 || Touches(ings, k)) ==>
        ReduceStock(stock, ings, sold).value[k].quantity >= 0.0
    decreases |ings|
  {
    var r := ReduceStock(stock, ings, sold);
    if |ings| > 0 && r.Ok? {
      var ing := ings[0];
      var stock1 := Draw(stock, ing, sold).value;
      ReduceStockKeepsNonNegative(stock1, ings[1..], sold);
      forall k | k in stock && (stock[k].quantity >= 0.0 || Touches(ings, k))
        ensures r.value[k].quantity >= 0.0
      {
        if k == ing.stockItem {
          assert stock1[k].quantity >= 0.0;
        } else if stock[k].quantity >= 0.0 {
          assert stock1[k] == stock[k];
        } else {
          var i :| 0 <= i < |ings| && ings[i].stockItem == k;
          assert ings[1..][i - 1].stockItem == k;
          assert Touches(ings[1..], k);
        }
      }
    }
  }

  /** With distinct stock items, the sale draws `quantity_required * quantity_sold` from
      each ingredient's stock item and nothing from any other item. */
  lemma {:induction false} ConsumedDistinct(ings: seq<Ingredient>, sold: real, k: Id)
    requires DistinctStockItems(ings)
    ensures forall i :: 0 <= i < |ings| && ings[i].stockItem == k ==> Consumed(ings, sold, k) == ings[i].quantityRequired * sold
    ensures (forall i :: 0 <= i < |ings| ==> ings[i].stockItem != k) ==> Consumed(ings, sold, k) == 0.0
    decreases |ings|
  {
    if |ings| > 0 {
      ConsumedDistinct(ings[1..], sold, k);
      if ings[0].stockItem == k {
        assert forall i :: 1 <= i < |ings| ==> ings[1..][i - 1] == ings[i];
      } else {
        assert forall i :: 1 <= i < |ings| ==> ings[1..][i - 1] == ings[i];
      }
    }
  }

  /** Some ingredient is short, judged against `stock`. */
  ghost predicate AnyShort(stock: map<Id, StockItem>, ings: seq<Ingredient>, sold: real) {
    exists i :: 0 <= i < |ings| && Short(stock, ings[i], sold)
  }

  lemma AnyShortSplit(stock: map<Id, StockItem>, ings: seq<Ingredient>, sold: real)
    requires |ings| > 0
    ensures AnyShort(stock, ings, sold) <==> Short(stock, ings[0], sold) || AnyShort(stock, ings[1..], sold)
  {
    if AnyShort(stock, ings, sold) && !Short(stock, ings[0], sold) {
      var i :| 0 <= i < |ings| && Short(stock, ings[i], sold);
      assert ings[1..][i - 1] == ings[i];
    }
    if AnyShort(stock, ings[1..], sold) {
      var i :| 0 <= i < |ings| - 1 && Short(stock, ings[1..][i], sold);
      assert ings[1..][i] == ings[i + 1];
    }
  }

  /** Changing one stock item does not change whether ingredients naming other items are short. */
  lemma AnyShortFrame(stock: map<Id, StockItem>, stock1: map<Id, StockItem>, k: Id, ings: seq<Ingredient>, sold: real)
    requires stock1.Keys == stock.Keys
    requires forall j :: j in stock && j != k ==> stock1[j] == stock[j]
    requires forall i :: 0 <= i < |ings| ==> ings[i].stockItem != k
    ensures AnyShort(stock1, ings, sold) <==> AnyShort(stock, ings, sold)
  {
    assert forall i :: 0 <= i < |ings| ==> (Short(stock1, ings[i], sold) <==> Short(stock, ings[i], sold));
  }

  /** With distinct stock items, `reduce_stock` raises exactly when some ingredient's stock
      item is missing or holds less than the ingredient requires, judged against the
      quantities before the sale. */
  lemma {:induction false} ReduceStockFailsIffShort(stock: map<Id, StockItem>, ings: seq<Ingredient>, sold: real)
    requires DistinctStockItems(ings)
    ensures ReduceStock(stock, ings, sold).Err? <==> AnyShort(stock, ings, sold)
    decreases |ings|
  {
    if |ings| > 0 {
      var ing := ings[0];
      AnyShortSplit(stock, ings, sold);
      if !Short(stock, ing, sold) {
        var stock1 := Draw(stock, ing, sold).value;
        var rest := ings[1..];
        assert DistinctStockItems(rest) by {
          forall i, j | 0 <= i < j < |rest| ensures rest[i].stockItem != rest[j].stockItem {
            assert rest[i] == ings[i + 1] && rest[j] == ings[j + 1];
          }
        }
        assert forall i :: 0 <= i < |rest| ==> rest[i] == ings[i + 1];
        ReduceStockFailsIffShort(stock1, rest, sold);
        AnyShortFrame(stock, stock1, ing.stockItem, rest, sold);
      }
    }
  }

  /** One iteration of the `reverse_stock` loop: give back half the amount. */
  function Give(stock: map<Id, StockItem>, ing: Ingredient, sold: real): Result<map<Id, StockItem>, ModelError> {
    if ing.stockItem !in stock then Err(MissingStockItem(ing.stockItem))
    else
      var item := stock[ing.stockItem];
      Ok(stock[ing.stockItem := item.(quantity := item.quantity + ing.quantityRequired * sold / 2.0)])
  }

  /** The loop of `Transaction.reverse_stock`: every ingredient's stock item gets back HALF
      of `quantity_required * quantity_sold`. It fails only on a dangling stock item. */
  function ReverseStock(stock: map<Id, StockItem>, ings: seq<Ingredient>, sold: real): (r: Result<map<Id, StockItem>, ModelError>)
    decreases |ings|
    ensures r.Ok? <==> forall i :: 0 <= i < |ings| ==> ings[i].stockItem in stock
    ensures r.Ok? ==> r.value.Keys == stock.Keys
    ensures r.Ok? ==> forall k :: k in stock ==>
      r.value[k] == stock[k].(quantity := stock[k].quantity + Consumed(ings, sold, k) / 2.0)
    ensures r.Err? ==> r.error.MissingStockItem? && r.error.id !in stock
  {
    if |ings| == 0 then Ok(stock)
    else
      match Give(stock, ings[0], sold)
      case Err(e) => Err(e)
      case Ok(stock1) =>
        var r := ReverseStock(stock1, ings[1..], sold);
        assert forall i :: 1 <= i < |ings| ==> ings[1..][i - 1] == ings[i];
        r
  }

  /** `Transaction.reduce_stock` on the database: the transaction's product's ingredients
      draw on the stock table, and nothing but that table changes. */
  function ReduceFor(db: Db, t: Transaction): (r: Result<Db, ModelError>)
    ensures r.Ok? <==> ReduceStock(db.stock, IngredientsOf(db.ingredients, t.product), t.quantitySold).Ok?
    ensures r.Ok? ==> r.value == db.(stock := r.value.stock) && r.value.stock.Keys == db.stock.Keys
    ensures r.Ok? ==> forall k :: k in db.stock ==>
      r.value.stock[k].quantity == db.stock[k].quantity - Consumed(IngredientsOf(db.ingredients, t.product), t.quantitySold, k)
    ensures r.Err? ==> r.error.InsufficientStock? || r.error.MissingStockItem?
  {
    match ReduceStock(db.stock, IngredientsOf(db.ingredients, t.product), t.quantitySold)
    case Ok(s) => Ok(db.(stock := s))
    case Err(e) => Err(e)
  }

  /** `Transaction.reverse_stock` on the database: half of what the sale consumed goes
      back to each stock item, and nothing but the stock table changes. */
  function ReverseFor(db: Db, t: Transaction): (r: Result<Db, ModelError>)
    ensures r.Ok? <==> forall i :: 0 <= i < |IngredientsOf(db.ingredients, t.product)| ==>
      IngredientsOf(db.ingredients, t.product)[i].stockItem in db.stock
    ensures r.Ok? ==> r.value == db.(stock := r.value.stock) && r.value.stock.Keys == db.stock.Keys
    ensures r.Ok? ==> forall k :: k in db.stock ==>
      r.value.stock[k].quantity == db.stock[k].quantity + Consumed(IngredientsOf(db.ingredients, t.product), t.quantitySold, k) / 2.0
    ensures r.Err? ==> r.error.MissingStockItem? && r.error.id !in db.stock
  {
    match ReverseStock(db.stock, IngredientsOf(db.ingredients, t.product), t.quantitySold)
    case Ok(s) => Ok(db.(stock := s))
    case Err(e) => Err(e)
  }

  /** The transaction table without the row keyed `id`. */
  function Without(ts: seq<Transaction>, id: Id): (r: seq<Transaction>)
    ensures forall x :: x in r <==> x in ts && x.id != id
  {
    if |ts| == 0 then []
    else (if ts[0].id == id then [] else [ts[0]]) + Without(ts[1..], id)
  }

  /** Removing a key that only the last row carries gives back the rows before it. */
  lemma {:induction false} WithoutAppended(ts: seq<Transaction>, t: Transaction)
    requires forall i :: 0 <= i < |ts| ==> ts[i].id != t.id
    ensures Without(ts + [t], t.id) == ts
    decreases |ts|
  {
    if |ts| == 0 {
      assert Without([t], t.id) == [] + Without([], t.id);
    } else {
      assert (ts + [t])[1..] == ts[1..] + [t];
      WithoutAppended(ts[1..], t);
    }
  }

  /** `Transaction.delete`: `reverse_stock` runs first, then the row is removed. If the
      reversal raises, the row stays and no stock changes. */
  function DeleteTransaction(db: Db, t: Transaction): (r: Result<Db, ModelError>)
    ensures r.Err? <==> ReverseFor(db, t).Err?
    ensures r.Ok? ==> r.value == db.(stock := r.value.stock, transactions := r.value.transactions)
    ensures Valid(db) && r.Ok? ==> Valid(r.value)
    ensures r.Ok? ==> r.value.transactions == Without(db.transactions, t.id)
    ensures r.Ok? ==> r.value.stock.Keys == db.stock.Keys && forall k :: k in db.stock ==>
      r.value.stock[k].quantity ==
        db.stock[k].quantity + Consumed(IngredientsOf(db.ingredients, t.product), t.quantitySold, k) / 2.0
    ensures r.Ok? ==> r.value.ingredients == db.ingredients && r.value.products == db.products
  {
    match ReverseFor(db, t)
    case Ok(db1) => Ok(db1.(transactions := Without(db1.transactions, t.id)))
    case Err(e) => Err(e)
  }

  /** Deleting a sale through the model alone gives back only half of what the sale took:
      after `reduce_stock` and then `delete`, each stock item stands at its old quantity
      minus half of the consumed amount. */
  lemma ModelDeleteRestoresHalf(db: Db, t: Transaction)
    requires ReduceFor(db, t).Ok?
    ensures DeleteTransaction(ReduceFor(db, t).value, t).Ok?
    ensures forall k :: k in db.stock ==>
      DeleteTransaction(ReduceFor(db, t).value, t).value.stock[k].quantity ==
        db.stock[k].quantity - Consumed(IngredientsOf(db.ingredients, t.product), t.quantitySold, k) / 2.0
  {
    var ings := IngredientsOf(db.ingredients, t.product);
    var db1 := ReduceFor(db, t).value;
    assert db1.ingredients == db.ingredients;
    assert forall i :: 0 <= i < |ings| ==> ings[i].stockItem in db1.stock;
  }

  /** Two reversals undo one reduction: each gives back half of what the sale took. */
  lemma ReduceThenReverseTwice(stock: map<Id, StockItem>, ings: seq<Ingredient>, sold: real)
    requires ReduceStock(stock, ings, sold).Ok?
    ensures ReverseStock(ReduceStock(stock, ings, sold).value, ings, sold).Ok?
    ensures ReverseStock(ReverseStock(ReduceStock(stock, ings, sold).value, ings, sold).value, ings, sold) == Ok(stock)
  {
    var red := ReduceStock(stock, ings, sold).value;
    assert red.Keys == stock.Keys;
    assert ReverseStock(red, ings, sold).Ok?;
    var once := ReverseStock(red, ings, sold).value;
    assert once.Keys == stock.Keys;
    assert ReverseStock(once, ings, sold).Ok?;
    var twice := ReverseStock(once, ings, sold).value;
    forall k | k in stock ensures twice[k] == stock[k] {
      var cs := Consumed(ings, sold, k);
      var item := stock[k];
      assert red[k] == item.(quantity := item.quantity - cs);
      assert once[k] == red[k].(quantity := red[k].quantity + cs / 2.0);
      assert twice[k] == once[k].(quantity := once[k].quantity + cs / 2.0);
    }
    assert twice == stock;
  }
}

=== FILE: queries.dfy ===
/** The two orderings the views ask the database for: transactions newest first
    (`order_by('-date')`), and sales summed per week in ascending week order
    (`TruncWeek` + `values` + `Sum` + `order_by('week_day')`). */
module Queries {
  import opened Models

  /* ---------------------------------------------------------------------------
     Newest first
     --------------------------------------------------------------------------- */

  /** Dates never increase along the sequence. */
  predicate NewestFirst(ts: seq<Transaction>) {
    forall i, j :: 0 <= i < j < |ts| ==> ts[i].date >= ts[j].date
  }

  /** Insert `t` into a newest-first sequence, ahead of any row with the same date. */
  function InsertByDate(t: Transaction, ts: seq<Transaction>): (r: seq<Transaction>)
    requires NewestFirst(ts)
    ensures NewestFirst(r)
    ensures multiset(r) == multiset(ts) + multiset{t}
    ensures |r| == |ts| + 1
    ensures r[0] == t || (|ts| > 0 && r[0] == ts[0])
  {
    if |ts| == 0 then [t]
    else if t.date >= ts[0].date then [t] + ts
    else
      var rest := InsertByDate(t, ts[1..]);
      assert ts == [ts[0]] + ts[1..];
      [ts[0]] + rest
  }

  /** The rows of `ts` rearranged newest first. */
  function SortNewestFirst(ts: seq<Transaction>): (r: seq<Transaction>)
    ensures NewestFirst(r)
    ensures multiset(r) == multiset(ts)
  {
    if |ts| == 0 then []
    else
      assert ts == [ts[0]] + ts[1..];
      InsertByDate(ts[0], SortNewestFirst(ts[1..]))
  }

  /* ---------------------------------------------------------------------------
     Weekly sums
     --------------------------------------------------------------------------- */

  /** One row of the dashboard: the week (as `TruncWeek` yields it) and its total sales. */
  datatype WeekTotal = WeekTotal(week: int, total: real)

  /** Weeks strictly increase along the sequence, so each week has at most one entry. */
  predicate Ascending(ws: seq<WeekTotal>) {
    forall i, j :: 0 <= i < j < |ws| ==> ws[i].week < ws[j].week
  }

  /** The total listed for week `w`, summed over its entries; zero when it has none. */
  function TotalOf(ws: seq<WeekTotal>, w: int): real {
    if |ws| == 0 then 0.0
    else (if ws[0].week == w then ws[0].total else 0.0) + TotalOf(ws[1..], w)
  }

  /** Week `w` has an entry. */
  ghost predicate HasWeek(ws: seq<WeekTotal>, w: int) {
    exists i :: 0 <= i < |ws| && ws[i].week == w
  }

  /** A week without an entry totals zero. */
  lemma {:induction false} TotalOfAbsent(ws: seq<WeekTotal>, w: int)
    requires forall i :: 0 <= i < |ws| ==> ws[i].week != w
    ensures TotalOf(ws, w) == 0.0
    decreases |ws|
  {
    if |ws| > 0 {
      assert forall i :: 0 <= i < |ws| - 1 ==> ws[1..][i] == ws[i + 1];
      TotalOfAbsent(ws[1..], w);
    }
  }

  /** In an ascending list the total of an entry's week is that entry's total. */
  lemma {:induction false} TotalOfEntry(ws: seq<WeekTotal>, i: nat)
    requires Ascending(ws) && i < |ws|
    ensures TotalOf(ws, ws[i].week) == ws[i].total
    decreases |ws|
  {
    if i == 0 {
      assert forall j :: 0 <= j < |ws| - 1 ==> ws[1..][j] == ws[j + 1];
      TotalOfAbsent(ws[1..], ws[0].week);
    } else {
      assert ws[1..][i - 1] == ws[i];
      TotalOfEntry(ws[1..], i - 1);
    }
  }

  /** The weeks of a list with a head entry. */
  lemma HasWeekCons(h: WeekTotal, ws: seq<WeekTotal>, x: int)
    ensures HasWeek([h] + ws, x) <==> h.week == x || HasWeek(ws, x)
  {
    var r := [h] + ws;
    if HasWeek(ws, x) {
      var i :| 0 <= i < |ws| && ws[i].week == x;
      assert r[i + 1] == ws[i];
    }
    if HasWeek(r, x) && h.week != x {
      var i :| 0 <= i < |r| && r[i].week == x;
      assert i > 0 && r[i] == ws[i - 1];
    }
    if h.week == x {
      assert r[0] == h;
    }
  }

  /** The totals of a list with a head entry. */
  lemma TotalOfCons(h: WeekTotal, ws: seq<WeekTotal>, x: int)
    ensures TotalOf([h] + ws, x) == (if h.week == x then h.total else 0.0) + TotalOf(ws, x)
  {
    assert ([h] + ws)[1..] == ws;
  }

  /** Add `q` units sold in week `w` to an ascending list of weekly totals. */
  function AddSale(ws: seq<WeekTotal>, w: int, q: real): (r: seq<WeekTotal>)
    requires Ascending(ws)
    ensures Ascending(r)
    ensures |r| > 0 && (r[0].week == w || (|ws| > 0 && r[0].week == ws[0].week))
    ensures forall x :: TotalOf(r, x) == TotalOf(ws, x) + (if x == w then q else 0.0)
    ensures forall x :: HasWeek(r, x) <==> HasWeek(ws, x) || x == w
  {
    if |ws| == 0 then
      var r := [WeekTotal(w, q)] + ws;
      forall x ensures TotalOf(r, x) == TotalOf(ws, x) + (if x == w then q else 0.0)
        && (HasWeek(r, x) <==> HasWeek(ws, x) || x == w) {
        TotalOfCons(WeekTotal(w, q), ws, x);
        HasWeekCons(WeekTotal(w, q), ws, x);
      }
      r
    else if ws[0].week == w then
      var r := [WeekTotal(w, ws[0].total + q)] + ws[1..];
      assert ws == [ws[0]] + ws[1..];
      forall x ensures TotalOf(r, x) == TotalOf(ws, x) + (if x == w then q else 0.0)
        && (HasWeek(r, x) <==> HasWeek(ws, x) || x == w) {
        TotalOfCons(WeekTotal(w, ws[0].total + q), ws[1..], x);
        TotalOfCons(ws[0], ws[1..], x);
        HasWeekCons(WeekTotal(w, ws[0].total + q), ws[1..], x);
        HasWeekCons(ws[0], ws[1..], x);
      }
      r
    else if w < ws[0].week then
      var r := [WeekTotal(w, q)] + ws;
      TotalOfAbsent(ws, w);
      forall x ensures TotalOf(r, x) == TotalOf(ws, x) + (if x == w then q else 0.0)
        && (HasWeek(r, x) <==> HasWeek(ws, x) || x == w) {
        TotalOfCons(WeekTotal(w, q), ws, x);
        HasWeekCons(WeekTotal(w, q), ws, x);
      }
      r
    else
      var rest := AddSale(ws[1..], w, q);
      var r := [ws[0]] + rest;
      assert ws == [ws[0]] + ws[1..];
      forall x ensures TotalOf(r, x) == TotalOf(ws, x) + (if x == w then q else 0.0)
        && (HasWeek(r, x) <==> HasWeek(ws, x) || x == w) {
        TotalOfCons(ws[0], rest, x);
        TotalOfCons(ws[0], ws[1..], x);
        HasWeekCons(ws[0], rest, x);
        HasWeekCons(ws[0], ws[1..], x);
      }
      r
  }

  /** Reference definition: the quantity sold in week `w`, summed over the rows of `ts`
      whose date falls in it. */
  function SoldInWeek(ts: seq<Transaction>, weekOf: int -> int, w: int): real {
    if |ts| == 0 then 0.0
    else (if weekOf(ts[0].date) == w then ts[0].quantitySold else 0.0) + SoldInWeek(ts[1..], weekOf, w)
  }

  /** Some row of `ts` falls in week `w`. */
  ghost predicate InSomeWeek(ts: seq<Transaction>, weekOf: int -> int, w: int) {
    exists i :: 0 <= i < |ts| && weekOf(ts[i].date) == w
  }

  /** Group `ts` by week and sum `quantity_sold` per group, weeks in ascending order. */
  function WeeklySales(ts: seq<Transaction>, weekOf: int -> int): (r: seq<WeekTotal>)
    ensures Ascending(r)
    ensures forall w :: TotalOf(r, w) == SoldInWeek(ts, weekOf, w)
    ensures forall w :: HasWeek(r, w) <==> InSomeWeek(ts, weekOf, w)
  {
    if |ts| == 0 then []
    else
      var rest := WeeklySales(ts[1..], weekOf);
      var r := AddSale(rest, weekOf(ts[0].date), ts[0].quantitySold);
      forall w ensures InSomeWeek(ts, weekOf, w) <==> weekOf(ts[0].date) == w || InSomeWeek(ts[1..], weekOf, w) {
        if InSomeWeek(ts, weekOf, w) && weekOf(ts[0].date) != w {
          var i :| 0 <= i < |ts| && weekOf(ts[i].date) == w;
          assert ts[1..][i - 1] == ts[i];
        }
        if InSomeWeek(ts[1..], weekOf, w) {
          var i :| 0 <= i < |ts| - 1 && weekOf(ts[1..][i].date) == w;
          assert ts[1..][i] == ts[i + 1];
        }
      }
      r
  }

  /** Every dashboard entry holds exactly the sales of its own week. */
  lemma WeeklySalesEntries(ts: seq<Transaction>, weekOf: int -> int)
    ensures forall i :: 0 <= i < |WeeklySales(ts, weekOf)| ==>
      WeeklySales(ts, weekOf)[i].total == SoldInWeek(ts, weekOf, WeeklySales(ts, weekOf)[i].week)
  {
    var r := WeeklySales(ts, weekOf);
    forall i | 0 <= i < |r| ensures r[i].total == SoldInWeek(ts, weekOf, r[i].week) {
      TotalOfEntry(r, i);
    }
  }
}

=== FILE: serializers.dfy ===
/** The serializers with logic of their own: the login token response, user
    registration and profile update, and product create/update with their ingredient
    rows. Field-level validation (types, lengths, required fields) happens before these
    run and is not modelled; inputs arrive as validated values. */
module Serializers {
  import opened Common
  import opened Models

  /* ---------------------------------------------------------------------------
     Token response
     --------------------------------------------------------------------------- */

  /** The access/refresh pair simplejwt signs for a user. */
  datatype TokenPair = TokenPair(access: string, refresh: string)

  /** The JSON body of a successful `token/` request. */
  datatype TokenResponse = TokenResponse(access: string, refresh: string, userId: Id)

  /** `AuthenticationFailed`, answered with 401. */
  datatype AuthError = AuthenticationFailed

  /** `CustomTokenObtainPairSerializer.validate`. `authenticated` is the user Django's
      authentication backend accepted for the submitted credentials (if any) and `issue`
      the token pair simplejwt signs for a user; both are outside this model. The
      response carries the pair and, added by this serializer, the user's id. */
  function ValidateToken(authenticated: Option<Id>, issue: Id -> TokenPair): (r: Result<TokenResponse, AuthError>)
    ensures r.Ok? <==> authenticated.Some?
    ensures r.Ok? ==> r.value.userId == authenticated.value
    ensures r.Ok? ==> TokenPair(r.value.access, r.value.refresh) == issue(r.value.userId)
  {
    match authenticated
    case None => Err(AuthenticationFailed)
    case Some(id) =>
      var pair := issue(id);
      Ok(TokenResponse(pair.access, pair.refresh, id))
  }

  /* ---------------------------------------------------------------------------
     Users
     --------------------------------------------------------------------------- */

  /** The validated registration form. */
  datatype Registration = Registration(
    username: string,
    password: string,
    email: string,
    phoneNumber: string,
    address: string,
    businessName: string,
    profilePicture: Option<string>)

  /** `UserSerializer.create`: the password is replaced by its hash before the row is
      inserted, so the column never holds the raw value and the password checks. */
  function CreateUser(db: Db, reg: Registration): (s: Saved)
    ensures s.id == db.nextId && s.db.nextId == db.nextId + 1
    ensures s.db.users.Keys == db.users.Keys + {s.id}
    ensures forall k :: k in db.users && k != s.id ==> s.db.users[k] == db.users[k]
    ensures !s.db.users[s.id].password.Plain?
    ensures CheckPassword(Some(reg.password), s.db.users[s.id].password)
    ensures forall other :: other != reg.password ==> !CheckPassword(Some(other), s.db.users[s.id].password)
    ensures s.db.users[s.id].username == reg.username && s.db.users[s.id].email == reg.email
  {
    var user := User(reg.username, Hashed(reg.password), reg.email, reg.phoneNumber,
                     reg.address, reg.businessName, reg.profilePicture);
    Saved(db.(users := db.users[db.nextId := user], nextId := db.nextId + 1), db.nextId)
  }

  /** Django's `authenticate` with the model backend: the user with that username, whose
      stored password checks against the one submitted. */
  ghost predicate Authenticates(db: Db, username: string, password: string, id: Id) {
    id in db.users && db.users[id].username == username && CheckPassword(Some(password), db.users[id].password)
  }

  /** Registering and then obtaining a token with the same credentials: exactly the new
      user authenticates, only with the registered password, and the token response
      names that user. (Usernames are unique in the user table.) */
  lemma RegisterThenObtainToken(db: Db, reg: Registration, issue: Id -> TokenPair)
    requires forall k :: k in db.users ==> db.users[k].username != reg.username
    ensures var s := CreateUser(db, reg);
      && Authenticates(s.db, reg.username, reg.password, s.id)
      && (forall k, pw :: Authenticates(s.db, reg.username, pw, k) ==> k == s.id && pw == reg.password)
      && ValidateToken(Some(s.id), issue).Ok? && ValidateToken(Some(s.id), issue).value.userId == s.id
  {
  }

  /** The writable user attributes `UserSerializer` accepts besides the picture. */
  datatype Attr = UsernameAttr | PasswordAttr | EmailAttr | PhoneAttr | AddressAttr | BusinessAttr

  /** The text of a non-password attribute. */
  function Text(u: User, a: Attr): string
    requires a != PasswordAttr
  {
    match a
    case UsernameAttr => u.username
    case EmailAttr => u.email
    case PhoneAttr => u.phoneNumber
    case AddressAttr => u.address
    case BusinessAttr => u.businessName
  }

  /** The value last supplied for `a` in `items`, if any. */
  function Supplied(items: seq<(Attr, string)>, a: Attr): Option<string> {
    if |items| == 0 then None
    else if items[|items| - 1].0 == a then Some(items[|items| - 1].1)
    else Supplied(items[..|items| - 1], a)
  }

  /** `setattr(instance, attr, value)`, with `password` written through `store`. */
  function SetAttr(u: User, a: Attr, v: string, store: string -> Password): User {
    match a
    case UsernameAttr => u.(username := v)
    case PasswordAttr => u.(password := store(v))
    case EmailAttr => u.(email := v)
    case PhoneAttr => u.(phoneNumber := v)
    case AddressAttr => u.(address := v)
    case BusinessAttr => u.(businessName := v)
  }

  /** The `for attr, value in validated_data.items(): setattr(...)` loop. Every supplied
      attribute ends with the value supplied last for it; every other attribute and the
      picture are untouched. */
  function ApplyItems(u: User, items: seq<(Attr, string)>, store: string -> Password): (r: User)
    ensures r.profilePicture == u.profilePicture
    ensures forall a :: a != PasswordAttr ==> Text(r, a) == Supplied(items, a).GetOr(Text(u, a))
    ensures r.password == (match Supplied(items, PasswordAttr) case Some(p) => store(p) case None => u.password)
  {
    if |items| == 0 then u
    else
      var last := items[|items| - 1];
      SetAttr(ApplyItems(u, items[..|items| - 1], store), last.0, last.1, store)
  }

  /** A picture only replaces the stored one when it is truthy (present and non-empty). */
  function ApplyPicture(u: User, picture: Option<string>): User {
    if picture.Some? && picture.value != "" then u.(profilePicture := picture) else u
  }

  /** `UserSerializer.update` as written: `profile_picture` is popped and applied only when
      truthy; every other supplied attribute is written with `setattr`, so a supplied
      password lands in the column as raw text. */
  function UpdateUserAsWritten(u: User, picture: Option<string>, items: seq<(Attr, string)>): (r: User)
    ensures picture.Some? && picture.value != "" ==> r.profilePicture == picture
    ensures picture.None? || picture.value == "" ==> r.profilePicture == u.profilePicture
    ensures forall a :: a != PasswordAttr ==> Text(r, a) == Supplied(items, a).GetOr(Text(u, a))
    ensures Supplied(items, PasswordAttr).None? ==> r.password == u.password
    ensures Supplied(items, PasswordAttr).Some? ==> r.password == Plain(Supplied(items, PasswordAttr).value)
  {
    ApplyItems(ApplyPicture(u, picture), items, (v: string) => Plain(v))
  }

  /** `UserSerializer.update` with a supplied password hashed, as `create` does. Every
      other attribute is handled exactly as in the code as written. */
  function UpdateUser(u: User, picture: Option<string>, items: seq<(Attr, string)>): (r: User)
    ensures picture.Some? && picture.value != "" ==> r.profilePicture == picture
    ensures picture.None? || picture.value == "" ==> r.profilePicture == u.profilePicture
    ensures forall a :: a != PasswordAttr ==> Text(r, a) == Text(UpdateUserAsWritten(u, picture, items), a)
    ensures Supplied(items, PasswordAttr).None? ==> r == UpdateUserAsWritten(u, picture, items)
    ensures Supplied(items, PasswordAttr).Some? ==> r.password == Hashed(Supplied(items, PasswordAttr).value)
  {
    var r := ApplyItems(ApplyPicture(u, picture), items, (v: string) => Hashed(v));
    var w := UpdateUserAsWritten(u, picture, items);
    assert Text(r, UsernameAttr) == Text(w, UsernameAttr) && Text(r, EmailAttr) == Text(w, EmailAttr);
    assert Text(r, PhoneAttr) == Text(w, PhoneAttr) && Text(r, AddressAttr) == Text(w, AddressAttr);
    assert Text(r, BusinessAttr) == Text(w, BusinessAttr);
    r
  }

  /** A profile update that supplies a password locks the user out under the code as
      written (the new password no longer checks), but not under the corrected update. */
  lemma PasswordUpdateLocksOut(u: User, p: string)
    ensures !CheckPassword(Some(p), UpdateUserAsWritten(u, None, [(PasswordAttr, p)]).password)
    ensures CheckPassword(Some(p), UpdateUser(u, None, [(PasswordAttr, p)]).password)
  {
    assert Supplied([(PasswordAttr, p)], PasswordAttr) == Some(p);
  }

  /* ---------------------------------------------------------------------------
     Products
     --------------------------------------------------------------------------- */

  /** One validated entry of the `ingredients` list. */
  datatype IngredientInput = IngredientInput(stockItem: Id, quantityRequired: real)

  /** A validated product body. */
  datatype ProductInput = ProductInput(name: string, unit: string, ingredients: seq<IngredientInput>)

  /** The rows `ProductIngredient.objects.create` writes for `entries`, one per entry. */
  function Link(product: Id, entries: seq<IngredientInput>): (r: seq<Ingredient>)
    ensures |r| == |entries|
    ensures forall i :: 0 <= i < |r| ==> r[i] == Ingredient(product, entries[i].stockItem, entries[i].quantityRequired)
  {
    if |entries| == 0 then []
    else
      var last := entries[|entries| - 1];
      Link(product, entries[..|entries| - 1]) + [Ingredient(product, last.stockItem, last.quantityRequired)]
  }

  /** `ProductSerializer.create`: insert the product through `Product.save`, then one
      ingredient row per entry, in order. */
  function CreateProduct(db: Db, owner: Id, input: ProductInput): (r: Result<Saved, ModelError>)
    ensures r.Err? <==> ProductNameTaken(db.products, input.name, owner, None)
    ensures r.Ok? ==> r.value.id == db.nextId && r.value.db.nextId == db.nextId + 1
    ensures r.Ok? ==> r.value.db.products == db.products[r.value.id := Product(input.name, input.unit, owner)]
    ensures r.Ok? ==> r.value.db.ingredients == db.ingredients + Link(r.value.id, input.ingredients)
    ensures r.Ok? ==> r.value.db.stock == db.stock && r.value.db.transactions == db.transactions
    ensures r.Ok? ==> r.value.db.users == db.users
    ensures Valid(db) && r.Ok? ==> Valid(r.value.db)
  {
    match SaveProduct(db, None, Product(input.name, input.unit, owner))
    case Err(e) => Err(e)
    case Ok(s) => Ok(Saved(s.db.(ingredients := s.db.ingredients + Link(s.id, input.ingredients)), s.id))
  }

  /** The new product's ingredients are exactly one row per input entry, linked to it with
      the entry's stock item and quantity. */
  lemma CreateProductIngredients(db: Db, owner: Id, input: ProductInput)
    requires Valid(db)
    ensures CreateProduct(db, owner, input).Ok? ==>
      var s := CreateProduct(db, owner, input).value;
      IngredientsOf(s.db.ingredients, s.id) == Link(s.id, input.ingredients)
  {
    var r := CreateProduct(db, owner, input);
    if r.Ok? {
      var id := r.value.id;
      IngredientsOfAppend(db.ingredients, Link(id, input.ingredients), id);
      IngredientsOfNone(db.ingredients, id);
      IngredientsOfAll(Link(id, input.ingredients), id);
    }
  }

  /** The ingredient table with every row of `pk` replaced by rows built from `entries`:
      the rows of every other product are as they were. */
  function ReplaceIngredients(ings: seq<Ingredient>, pk: Id, entries: seq<IngredientInput>): (r: seq<Ingredient>)
    ensures IngredientsOf(r, pk) == Link(pk, entries)
    ensures forall q :: q != pk ==> IngredientsOf(r, q) == IngredientsOf(ings, q)
    ensures forall i :: 0 <= i < |r| ==> r[i] in ings || r[i].product == pk
  {
    var kept := DropIngredientsOf(ings, pk);
    var added := Link(pk, entries);
    IngredientsOfAppend(kept, added, pk);
    IngredientsOfNone(kept, pk);
    IngredientsOfAll(added, pk);
    forall q | q != pk ensures IngredientsOf(kept + added, q) == IngredientsOf(ings, q) {
      IngredientsOfAppend(kept, added, q);
      IngredientsOfNone(added, q);
    }
    assert forall i :: 0 <= i < |kept + added| ==> (kept + added)[i] in ings || (kept + added)[i].product == pk by {
      forall i | 0 <= i < |kept + added| ensures (kept + added)[i] in ings || (kept + added)[i].product == pk {
        if i < |kept| {
          assert (kept + added)[i] == kept[i];
        } else {
          assert (kept + added)[i] == added[i - |kept|];
        }
      }
    }
    kept + added
  }

  /** A validated partial product body: absent fields are `None`. */
  datatype ProductPatch = ProductPatch(name: Option<string>, unit: Option<string>, ingredients: Option<seq<IngredientInput>>)

  /** The ingredient list is supplied and truthy (non-empty). */
  predicate ReplacesIngredients(patch: ProductPatch) {
    patch.ingredients.Some? && |patch.ingredients.value| > 0
  }

  /** `ProductSerializer.update`: absent name or unit keeps the stored one; the product is
      saved (and may be rejected as a duplicate, before anything else changes); a
      non-empty ingredient list replaces all of the product's ingredient rows, while an
      absent or empty one leaves them as they were. */
  function UpdateProduct(db: Db, pk: Id, patch: ProductPatch): (r: Result<Db, ModelError>)
    requires pk in db.products
    ensures r.Err? <==> ProductNameTaken(db.products, patch.name.GetOr(db.products[pk].name), db.products[pk].owner, Some(pk))
    ensures r.Ok? ==> r.value.products == db.products[pk :=
      Product(patch.name.GetOr(db.products[pk].name), patch.unit.GetOr(db.products[pk].unit), db.products[pk].owner)]
    ensures r.Ok? && !ReplacesIngredients(patch) ==> r.value.ingredients == db.ingredients
    ensures r.Ok? && ReplacesIngredients(patch) ==>
      IngredientsOf(r.value.ingredients, pk) == Link(pk, patch.ingredients.value)
    ensures r.Ok? ==> forall q :: q != pk ==> IngredientsOf(r.value.ingredients, q) == IngredientsOf(db.ingredients, q)
    ensures r.Ok? ==> r.value.stock == db.stock && r.value.transactions == db.transactions
    ensures r.Ok? ==> r.value.users == db.users && r.value.nextId == db.nextId
    ensures Valid(db) && r.Ok? ==> Valid(r.value)
  {
    var stored := db.products[pk];
    match SaveProduct(db, Some(pk), Product(patch.name.GetOr(stored.name), patch.unit.GetOr(stored.unit), stored.owner))
    case Err(e) => Err(e)
    case Ok(s) =>
      if ReplacesIngredients(patch) then
        var ings := ReplaceIngredients(s.db.ingredients, pk, patch.ingredients.value);
        assert Valid(db) ==> Valid(s.db.(ingredients := ings)) by {
          if Valid(db) {
            assert Valid(s.db);
            forall i | 0 <= i < |ings| ensures ings[i].product < s.db.nextId {
              if ings[i] in s.db.ingredients {
                var j :| 0 <= j < |s.db.ingredients| && s.db.ingredients[j] == ings[i];
              }
            }
          }
        }
        Ok(s.db.(ingredients := ings))
      else
        Ok(s.db)
  }
}

=== FILE: stock_page.dfy ===
/** The stock page: the list of stock items (shared through the stock context), the
    new-item form, and the per-row edit toggle. A handler that calls the server takes
    the outcome of the call as a parameter and returns the page afterwards together
    with the calls it made. */
module StockPage {
  import opened Common

  /** A listed stock item; `quantity` holds the text shown or typed. */
  datatype StockRow = StockRow(id: int, name: string, quantity: string, unit: string, isEditing: bool)

  datatype StockField = NameField | QuantityField | UnitField

  /** The new-item form. */
  datatype NewItem = NewItem(name: string, quantity: string, unit: string)

  const BlankItem := NewItem("", "", "")

  datatype StockCall =
    | AddStock(item: NewItem)
    | UpdateStock(id: int, name: string, quantity: Option<real>, unit: string)
    | FetchStock

  datatype Page = Page(items: seq<StockRow>, newItem: NewItem, notice: Option<string>)

  /** The page after a handler, and the server calls it issued, in order. */
  datatype Step = Step(page: Page, calls: seq<StockCall>)

  /** Some listed item already has this name (`stockItems.some(...)`). */
  predicate Listed(items: seq<StockRow>, name: string) {
    exists i :: 0 <= i < |items| && items[i].name == name
  }

  function HasName(items: seq<StockRow>, name: string): (b: bool)
    ensures b <==> Listed(items, name)
  {
    if |items| == 0 then false
    else if items[0].name == name then true
    else
      var rest := HasName(items[1..], name);
      assert forall i :: 1 <= i < |items| ==> items[i] == items[1..][i - 1];
      rest
  }

  /** `handleAddItem`: a name already listed is refused with "Barang sudah ada." and no
      call. Otherwise the item is posted; on success the form is cleared and the list is
      fetched again, on failure the form is kept. The list itself changes only when the
      fetch answers. */
  function AddItem(p: Page, added: bool): (s: Step)
    ensures Listed(p.items, p.newItem.name) ==> s == Step(p.(notice := Some("Barang sudah ada.")), [])
    ensures !Listed(p.items, p.newItem.name) ==>
      && s.page.items == p.items
      && |s.calls| >= 1 && s.calls[0] == AddStock(p.newItem)
      && (added ==> s.page.newItem == BlankItem && s.calls == [AddStock(p.newItem), FetchStock]
                    && s.page.notice == Some("Barang berhasil ditambahkan."))
      && (!added ==> s.page == p.(notice := Some("Gagal menambahkan barang. Silakan coba lagi."))
                     && s.calls == [AddStock(p.newItem)])
  {
    if HasName(p.items, p.newItem.name) then Step(p.(notice := Some("Barang sudah ada.")), [])
    else if added then
      Step(p.(newItem := BlankItem, notice := Some("Barang berhasil ditambahkan.")), [AddStock(p.newItem), FetchStock])
    else
      Step(p.(notice := Some("Gagal menambahkan barang. Silakan coba lagi.")), [AddStock(p.newItem)])
  }

  /** `{ ...item, [field]: value }`. */
  function SetField(row: StockRow, field: StockField, value: string): StockRow {
    match field
    case NameField => row.(name := value)
    case QuantityField => row.(quantity := value)
    case UnitField => row.(unit := value)
  }

  /** `handleChange`: only `field` of the item at `index` takes `value`; the length and
      every other item stay. An index outside the list matches no item. */
  function ChangeItem(items: seq<StockRow>, index: int, field: StockField, value: string): (r: seq<StockRow>)
    ensures |r| == |items|
    ensures forall j :: 0 <= j < |items| && j != index ==> r[j] == items[j]
    ensures 0 <= index < |items| ==>
      && r[index].id == items[index].id && r[index].isEditing == items[index].isEditing
      && (field.NameField? ==> r[index] == items[index].(name := value))
      && (field.QuantityField? ==> r[index] == items[index].(quantity := value))
      && (field.UnitField? ==> r[index] == items[index].(unit := value))
  {
    if 0 <= index < |items| then items[index := SetField(items[index], field, value)] else items
  }

  /** `handleEditItem`. On an item not being edited: it enters edit mode, with no call.
      On an item being edited: the name, the parsed quantity and the unit are sent;
      only if that succeeds does the item leave edit mode and the list get fetched
      again. An index outside the list makes the handler throw: nothing changes. */
  function EditItem(p: Page, index: int, parseFloat: string -> Option<real>, updated: bool): (s: Step)
    ensures !(0 <= index < |p.items|) ==> s == Step(p, [])
    ensures 0 <= index < |p.items| ==>
      var item := p.items[index];
      && |s.page.items| == |p.items|
      && (forall j :: 0 <= j < |p.items| && j != index ==> s.page.items[j] == p.items[j])
      && s.page.newItem == p.newItem
      && (!item.isEditing ==> s == Step(p.(items := p.items[index := item.(isEditing := true)]), []))
      && (item.isEditing ==>
            && |s.calls| >= 1
            && s.calls[0] == UpdateStock(item.id, item.name, parseFloat(item.quantity), item.unit)
            && (updated ==> s.page.items[index] == item.(isEditing := false) && s.calls[1..] == [FetchStock]
                            && s.page.notice == Some("Barang berhasil diperbarui."))
            && (!updated ==> s.page.items == p.items && |s.calls| == 1
                             && s.page.notice == Some("Gagal memperbarui barang. Silakan coba lagi.")))
  {
    if !(0 <= index < |p.items|) then Step(p, [])
    else
      var item := p.items[index];
      if !item.isEditing then Step(p.(items := p.items[index := item.(isEditing := true)]), [])
      else
        var call := UpdateStock(item.id, item.name, parseFloat(item.quantity), item.unit);
        if updated then
          Step(p.(items := p.items[index := item.(isEditing := false)], notice := Some("Barang berhasil diperbarui.")),
               [call, FetchStock])
        else Step(p.(notice := Some("Gagal memperbarui barang. Silakan coba lagi.")), [call])
  }

  /** Pressing the button twice on an item not being edited, with the save succeeding,
      brings the item back to how it was: edit then save is a round trip, issuing exactly
      one update. */
  lemma EditThenSaveRoundTrip(p: Page, index: int, parseFloat: string -> Option<real>)
    requires 0 <= index < |p.items| && !p.items[index].isEditing
    ensures var first := EditItem(p, index, parseFloat, true);
      var second := EditItem(first.page, index, parseFloat, true);
      && second.page.items == p.items
      && first.calls + second.calls ==
           [UpdateStock(p.items[index].id, p.items[index].name, parseFloat(p.items[index].quantity), p.items[index].unit),
            FetchStock]
  {
    var first := EditItem(p, index, parseFloat, true);
    assert first.page.items[index] == p.items[index].(isEditing := true);
  }

  /** `loadStockItems`: a fetched list replaces the shown one; a failed fetch only
      shows a notice. */
  function LoadStockItems(p: Page, fetched: Option<seq<StockRow>>): Page {
    match fetched
    case Some(items) => p.(items := items)
    case None => p.(notice := Some("Gagal memuat stok barang. Silakan coba lagi."))
  }

  /** The duplicate guard reads only the list on screen: typing the same name again
      before the refetch has answered posts it a second time, and once the refetched list
      holds the name the same add is refused without a call. */
  lemma DuplicateGuardIsLocal(p: Page, fetched: seq<StockRow>)
    requires !Listed(p.items, p.newItem.name)
    requires Listed(fetched, p.newItem.name)
    ensures var first := AddItem(p, true);
      var again := first.page.(newItem := p.newItem);
      && AddItem(again, true).calls == [AddStock(p.newItem), FetchStock]
      && var reloaded := LoadStockItems(again, Some(fetched));
         AddItem(reloaded, true) == Step(reloaded.(notice := Some("Barang sudah ada.")), [])
  {
  }

  /** The text of one field of a row. */
  function FieldOf(row: StockRow, field: StockField): string {
    match field
    case NameField => row.name
    case QuantityField => row.quantity
    case UnitField => row.unit
  }

  /** Typing a field's old text back undoes an edit, and of two edits to the same field
      the later wins. */
  lemma ChangeItemUndo(items: seq<StockRow>, index: int, field: StockField, value: string, later: string)
    ensures 0 <= index < |items| ==>
      ChangeItem(ChangeItem(items, index, field, value), index, field, FieldOf(items[index], field)) == items
    ensures ChangeItem(ChangeItem(items, index, field, value), index, field, later) == ChangeItem(items, index, field, later)
  {
    if 0 <= index < |items| {
      var once := ChangeItem(items, index, field, value);
      assert ChangeItem(once, index, field, FieldOf(items[index], field))[index] == items[index];
    }
  }
}

=== FILE: transactions_page.dfy ===
/** The product form and product list of the transactions page. Form fields hold the
    text the inputs hold; a handler that calls the server takes the server's answer as
    a parameter (`None` when the call fails) and returns the page afterwards together
    with the calls it made. */
module TransactionsPage {
  import opened Common

  /** One ingredient row of the form (`stock_item`, `quantity_required`, `unit`). */
  datatype IngredientRow = IngredientRow(stockItem: string, quantityRequired: string, unit: string)

  datatype IngredientField = StockItemField | QuantityRequiredField | UnitField

  /** The product being entered or edited. */
  datatype ProductForm = ProductForm(name: string, unit: string, ingredients: seq<IngredientRow>)

  /** A stock item as the page lists it for the ingredient picker. */
  datatype StockOption = StockOption(id: int, name: string, unit: string)

  /** A product as the server returns it. */
  datatype ProductEntry = ProductEntry(id: int, name: string, unit: string, ingredients: seq<IngredientRow>)

  /** The page's state. `notice` is the last message shown. */
  datatype Page = Page(
    products: seq<ProductEntry>,
    stockItems: seq<StockOption>,
    form: ProductForm,
    editing: Option<ProductEntry>,
    notice: Option<string>)

  datatype ApiCall = AddProduct(form: ProductForm) | UpdateProduct(id: int, form: ProductForm) | DeleteProduct(id: int)

  /** The page after a handler, and the server calls it issued, in order. */
  datatype Step = Step(page: Page, calls: seq<ApiCall>)

  const BlankRow := IngredientRow("", "", "")
  const BlankForm := ProductForm("", "", [])

  /* ---------------------------------------------------------------------------
     Ingredient rows
     --------------------------------------------------------------------------- */

  /** `handleAddIngredient`: exactly one blank row at the end; nothing else changes. */
  function AddIngredient(p: Page): (r: Page)
    ensures |r.form.ingredients| == |p.form.ingredients| + 1
    ensures r.form.ingredients[..|p.form.ingredients|] == p.form.ingredients
    ensures r.form.ingredients[|p.form.ingredients|] == BlankRow
    ensures r.form.name == p.form.name && r.form.unit == p.form.unit
    ensures r == p.(form := r.form)
  {
    p.(form := p.form.(ingredients := p.form.ingredients + [BlankRow]))
  }

  /** `stockItems.find(item => item.id === n)`: the first stock item with that id. */
  function FindStock(items: seq<StockOption>, n: Option<int>): (r: Option<StockOption>)
    ensures r.Some? <==> n.Some? && exists i :: 0 <= i < |items| && items[i].id == n.value
    ensures r.Some? ==> exists i :: 0 <= i < |items| && items[i] == r.value && items[i].id == n.value &&
                          forall j :: 0 <= j < i ==> items[j].id != n.value
  {
    if n.None? || |items| == 0 then None
    else if items[0].id == n.value then Some(items[0])
    else
      var rest := FindStock(items[1..], n);
      if rest.Some? then
        var i :| 0 <= i < |items[1..]| && items[1..][i] == rest.value && items[1..][i].id == n.value &&
                 forall j :: 0 <= j < i ==> items[1..][j].id != n.value;
        assert items[i + 1] == rest.value && forall j :: 0 <= j < i + 1 ==> items[j].id != n.value by {
          forall j | 0 <= j < i + 1 ensures items[j].id != n.value {
            if j > 0 { assert items[j] == items[1..][j - 1]; }
          }
        }
        rest
      else
        assert forall i :: 1 <= i < |items| ==> items[i] == items[1..][i - 1];
        rest
  }

  /** One row after `row[field] = value`, with the unit looked up when the stock item
      changes. */
  function UpdateRow(row: IngredientRow, field: IngredientField, value: string,
                     stock: seq<StockOption>, parseInt: string -> Option<int>): IngredientRow
  {
    match field
    case StockItemField =>
      var selected := FindStock(stock, parseInt(value));
      row.(stockItem := value, unit := if selected.Some? then selected.value.unit else "")
    case QuantityRequiredField => row.(quantityRequired := value)
    case UnitField => row.(unit := value)
  }

  /** `handleIngredientChange`: only the row at `index` changes, and only the edited field
      (plus its unit, when the stock item changes: the unit of the first stock item whose
      id is `parseInt(value)`, or empty when none matches). An index past the rows makes
      the handler throw, which leaves the page as it was. */
  function ChangeIngredient(p: Page, index: int, field: IngredientField, value: string,
                            parseInt: string -> Option<int>): (r: Page)
    ensures r == p.(form := r.form) && r.form == p.form.(ingredients := r.form.ingredients)
    ensures |r.form.ingredients| == |p.form.ingredients|
    ensures forall j :: 0 <= j < |p.form.ingredients| && j != index ==> r.form.ingredients[j] == p.form.ingredients[j]
    ensures 0 <= index < |p.form.ingredients| ==>
      var before := p.form.ingredients[index];
      var after := r.form.ingredients[index];
      match field
      case StockItemField =>
        && after.stockItem == value && after.quantityRequired == before.quantityRequired
        && (after.unit == "" || exists i :: 0 <= i < |p.stockItems| && p.stockItems[i].unit == after.unit)
        && ((exists i :: 0 <= i < |p.stockItems| && parseInt(value).Some? && p.stockItems[i].id == parseInt(value).value) ==>
              exists i :: 0 <= i < |p.stockItems| && p.stockItems[i].id == parseInt(value).value && p.stockItems[i].unit == after.unit &&
                forall j :: 0 <= j < i ==> p.stockItems[j].id != parseInt(value).value)
        && (parseInt(value).None? || (forall i :: 0 <= i < |p.stockItems| ==> p.stockItems[i].id != parseInt(value).value) ==>
              after.unit == "")
      case QuantityRequiredField => after == before.(quantityRequired := value)
      case UnitField => after == before.(unit := value)
    ensures !(0 <= index < |p.form.ingredients|) ==> r == p
  {
    if 0 <= index < |p.form.ingredients| then
      var rows := p.form.ingredients;
      p.(form := p.form.(ingredients := rows[index := UpdateRow(rows[index], field, value, p.stockItems, parseInt)]))
    else p
  }

  /** `ingredients.filter((_, i) => i !== index)`: the element at `index` goes, the rest
      keep their order. */
  function DropIndex<T>(s: seq<T>, index: int): (r: seq<T>)
    ensures 0 <= index < |s| ==> |r| == |s| - 1 && r == s[..index] + s[index + 1..]
    ensures !(0 <= index < |s|) ==> r == s
    ensures 0 <= index < |s| ==> multiset(r) + multiset{s[index]} == multiset(s)
    decreases |s|
  {
    if |s| == 0 then []
    else if index == 0 then
      assert s == [s[0]] + s[1..];
      s[1..]
    else
      var rest := DropIndex(s[1..], index - 1);
      assert 0 < index < |s| ==> [s[0]] + s[1..][..index - 1] + s[1..][index..] == s[..index] + s[index + 1..];
      assert !(0 <= index < |s|) ==> [s[0]] + s[1..] == s;
      assert s == [s[0]] + s[1..];
      [s[0]] + rest
  }

  /** `handleDeleteIngredient`: exactly the row at `index` goes, the rest keep their
      order; the rest of the page is untouched. */
  function DeleteIngredient(p: Page, index: int): (r: Page)
    ensures r == p.(form := p.form.(ingredients := r.form.ingredients))
    ensures 0 <= index < |p.form.ingredients| ==>
      && |r.form.ingredients| == |p.form.ingredients| - 1
      && (forall j :: 0 <= j < index ==> r.form.ingredients[j] == p.form.ingredients[j])
      && (forall j :: index <= j < |r.form.ingredients| ==> r.form.ingredients[j] == p.form.ingredients[j + 1])
      && multiset(r.form.ingredients) + multiset{p.form.ingredients[index]} == multiset(p.form.ingredients)
    ensures !(0 <= index < |p.form.ingredients|) ==> r == p
  {
    p.(form := p.form.(ingredients := DropIndex(p.form.ingredients, index)))
  }

  /** Deleting the row just added gives back the page as it was: add and delete are
      inverse on the form. */
  lemma AddThenDeleteIngredient(p: Page)
    ensures DeleteIngredient(AddIngredient(p), |p.form.ingredients|) == p
  {
    var rows := AddIngredient(p).form.ingredients;
    assert rows[..|p.form.ingredients|] == p.form.ingredients;
  }

  /* ---------------------------------------------------------------------------
     The product list
     --------------------------------------------------------------------------- */

  /** `products.map(prod => prod.id === id ? entry : prod)`. */
  function ReplaceById(ps: seq<ProductEntry>, id: int, entry: ProductEntry): (r: seq<ProductEntry>)
    ensures |r| == |ps|
    ensures forall j :: 0 <= j < |ps| ==> r[j] == if ps[j].id == id then entry else ps[j]
  {
    if |ps| == 0 then []
    else [if ps[0].id == id then entry else ps[0]] + ReplaceById(ps[1..], id, entry)
  }

  /** `products.filter(prod => prod.id !== id)`. */
  function RemoveId(ps: seq<ProductEntry>, id: int): (r: seq<ProductEntry>)
    ensures forall e :: e in r <==> e in ps && e.id != id
    ensures |r| <= |ps|
    ensures (forall j :: 0 <= j < |ps| ==> ps[j].id != id) ==> r == ps
  {
    if |ps| == 0 then []
    else (if ps[0].id != id then [ps[0]] else []) + RemoveId(ps[1..], id)
  }

  /** `handleAddProduct`. Editing: the product is sent as an update, and on success every
      listed product with the edited id is replaced by the server's answer and edit mode
      ends. Otherwise: the form is posted, and the answer is appended. After either
      success the form is blank; on failure only the notice changes. */
  function SaveProduct(p: Page, answer: Option<ProductEntry>): (s: Step)
    ensures p.editing.Some? ==> s.calls == [UpdateProduct(p.editing.value.id, p.form)]
    ensures p.editing.None? ==> s.calls == [AddProduct(p.form)]
    ensures answer.None? ==> s.page == p.(notice := Some("Gagal menyimpan produk."))
    ensures answer.Some? ==> s.page.form == BlankForm && s.page.editing.None? && s.page.stockItems == p.stockItems
    ensures answer.Some? && p.editing.Some? ==>
      && |s.page.products| == |p.products|
      && (forall j :: 0 <= j < |p.products| ==>
            s.page.products[j] == if p.products[j].id == p.editing.value.id then answer.value else p.products[j])
      && s.page.notice == Some("Produk diperbarui.")
    ensures answer.Some? && p.editing.None? ==>
      s.page.products == p.products + [answer.value] && s.page.notice == Some("Produk ditambahkan.")
  {
    if p.editing.Some? then
      var call := UpdateProduct(p.editing.value.id, p.form);
      match answer
      case None => Step(p.(notice := Some("Gagal menyimpan produk.")), [call])
      case Some(entry) =>
        var listed := ReplaceById(p.products, p.editing.value.id, entry);
        Step(p.(products := listed, editing := None, form := BlankForm, notice := Some("Produk diperbarui.")), [call])
    else
      var call := AddProduct(p.form);
      match answer
      case None => Step(p.(notice := Some("Gagal menyimpan produk.")), [call])
      case Some(entry) =>
        Step(p.(products := p.products + [entry], form := BlankForm, notice := Some("Produk ditambahkan.")), [call])
  }

  /** `handleDeleteProduct`: after a successful delete no listed product has that id and
      every other entry stays; on failure only the notice changes. */
  function DeleteProductEntry(p: Page, id: int, deleted: bool): (s: Step)
    ensures s.calls == [DeleteProduct(id)]
    ensures deleted ==>
      && s.page == p.(products := s.page.products, notice := Some("Produk dihapus."))
      && (forall e :: e in s.page.products <==> e in p.products && e.id != id)
      && s.page.products == RemoveId(p.products, id)
    ensures !deleted ==> s.page == p.(notice := Some("Gagal menghapus produk."))
  {
    if deleted then Step(p.(products := RemoveId(p.products, id), notice := Some("Produk dihapus.")), [DeleteProduct(id)])
    else Step(p.(notice := Some("Gagal menghapus produk.")), [DeleteProduct(id)])
  }

  /** `filter` keeps the survivors in their order: removing an id from two lists joined
      is removing it from each and joining the results. */
  lemma {:induction false} RemoveIdConcat(a: seq<ProductEntry>, b: seq<ProductEntry>, id: int)
    ensures RemoveId(a + b, id) == RemoveId(a, id) + RemoveId(b, id)
    decreases |a|
  {
    if |a| == 0 {
      assert a + b == b;
    } else {
      assert (a + b)[0] == a[0] && (a + b)[1..] == a[1..] + b;
      RemoveIdConcat(a[1..], b, id);
      var h := if a[0].id != id then [a[0]] else [];
      calc {
        RemoveId(a + b, id);
        h + RemoveId(a[1..] + b, id);
        h + (RemoveId(a[1..], id) + RemoveId(b, id));
        { assert h + (RemoveId(a[1..], id) + RemoveId(b, id)) == (h + RemoveId(a[1..], id)) + RemoveId(b, id); }
        RemoveId(a, id) + RemoveId(b, id);
      }
    }
  }

  /** A successful delete leaves the other products in the order they were listed. */
  lemma DeleteProductKeepsOrder(p: Page, id: int, before: seq<ProductEntry>, after: seq<ProductEntry>)
    requires p.products == before + after
    ensures DeleteProductEntry(p, id, true).page.products == RemoveId(before, id) + RemoveId(after, id)
  {
    RemoveIdConcat(before, after, id);
  }

  /** Removing an id twice is removing it once. */
  lemma {:induction false} RemoveIdIdempotent(ps: seq<ProductEntry>, id: int)
    ensures RemoveId(RemoveId(ps, id), id) == RemoveId(ps, id)
  {
    var r := RemoveId(ps, id);
    assert forall j :: 0 <= j < |r| ==> r[j] in r;
  }

  /** The ids of the listed products, in order. */
  function Ids(ps: seq<ProductEntry>): seq<int> {
    seq(|ps|, j requires 0 <= j < |ps| => ps[j].id)
  }

  /** Saving an edit whose answer keeps the product's id keeps the listed ids, in order:
      no product appears or disappears. */
  lemma SaveEditKeepsIds(p: Page, entry: ProductEntry)
    requires p.editing.Some? && entry.id == p.editing.value.id
    ensures Ids(SaveProduct(p, Some(entry)).page.products) == Ids(p.products)
  {
  }
}

=== FILE: views.dfy ===
/** The REST views of the back end: per-user listings, the create hooks of the stock,
    product and transaction viewsets, transaction deletion, the weekly dashboard and
    password change. `user` is always the authenticated requester. */
module Views {
  import opened Common
  import opened Models
  import opened Queries
  import opened Serializers

  /** Why a request was answered 400. */
  datatype Reason =
    | AlreadyExists       // the view's own duplicate-name check
    | InvalidReference    // a primary key the serializer could not resolve
    | Rejected(error: ModelError)
    | WrongPassword

  /** The status of a view's response; response bodies are not modelled. */
  datatype Status = Created(id: Id) | NoContent | Success | BadRequest(reason: Reason) | NotFound | ServerError

  /** The database after a request, and the response status. */
  datatype Outcome = Outcome(db: Db, status: Status)

  /** A model error as the client sees it: `ValidationError` is a 400, a dangling stock
      item (`DoesNotExist`) an unhandled exception. */
  function StatusOf(e: ModelError): Status {
    if e.MissingStockItem? then ServerError else BadRequest(Rejected(e))
  }

  /* ---------------------------------------------------------------------------
     Listings
     --------------------------------------------------------------------------- */

  /** `StockItemViewSet.get_queryset`: the requester's stock items and nothing else. */
  function ListStock(db: Db, user: Id): (r: map<Id, StockItem>)
    ensures forall k :: k in r <==> k in db.stock && db.stock[k].owner == user
    ensures forall k :: k in r ==> r[k] == db.stock[k]
  {
    map k | k in db.stock && db.stock[k].owner == user :: db.stock[k]
  }

  /** `ProductViewSet.get_queryset`: the requester's products and nothing else. */
  function ListProducts(db: Db, user: Id): (r: map<Id, Product>)
    ensures forall k :: k in r <==> k in db.products && db.products[k].owner == user
    ensures forall k :: k in r ==> r[k] == db.products[k]
  {
    map k | k in db.products && db.products[k].owner == user :: db.products[k]
  }

  /** The transaction is on a product `user` owns (`product__user=user`). */
  predicate OnProductOf(db: Db, t: Transaction, user: Id) {
    t.product in db.products && db.products[t.product].owner == user
  }

  /** The transactions on the requester's products, narrowed to one product when a
      `product_id` is given, in table order. */
  function OwnedTransactions(db: Db, user: Id, productFilter: Option<Id>): (r: seq<Transaction>)
    ensures forall t :: t in r <==>
      t in db.transactions && OnProductOf(db, t, user) && (productFilter.Some? ==> t.product == productFilter.value)
  {
    OwnedAmong(db, db.transactions, user, productFilter)
  }

  /** The rows of `ts` that `OwnedTransactions` keeps, in the order of `ts`. */
  function OwnedAmong(db: Db, ts: seq<Transaction>, user: Id, productFilter: Option<Id>): (r: seq<Transaction>)
    ensures forall t :: t in r <==>
      t in ts && OnProductOf(db, t, user) && (productFilter.Some? ==> t.product == productFilter.value)
  {
    if |ts| == 0 then []
    else
      var t := ts[0];
      var keep := OnProductOf(db, t, user) && (productFilter.Some? ==> t.product == productFilter.value);
      (if keep then [t] else []) + OwnedAmong(db, ts[1..], user, productFilter)
  }

  /** `TransactionViewSet.get_queryset`: the owned (and filtered) transactions, newest
      first; nothing else and nothing lost. */
  function ListTransactions(db: Db, user: Id, productFilter: Option<Id>): (r: seq<Transaction>)
    ensures NewestFirst(r)
    ensures multiset(r) == multiset(OwnedTransactions(db, user, productFilter))
    ensures forall t :: t in r ==>
      t in db.transactions && OnProductOf(db, t, user) && (productFilter.Some? ==> t.product == productFilter.value)
  {
    var r := SortNewestFirst(OwnedTransactions(db, user, productFilter));
    assert forall t :: t in r ==> t in multiset(r);
    r
  }

  /** `DashboardDataView.get`: one entry per week in which the requester sold anything
      (optionally of one product), weeks ascending, each holding that week's total
      `quantity_sold`. `weekOf` stands for `TruncWeek` in the server's time zone. */
  function Dashboard(db: Db, user: Id, productFilter: Option<Id>, weekOf: int -> int): (r: seq<WeekTotal>)
    ensures Ascending(r)
    ensures forall i :: 0 <= i < |r| ==>
      r[i].total == SoldInWeek(OwnedTransactions(db, user, productFilter), weekOf, r[i].week)
    ensures forall w :: HasWeek(r, w) <==> InSomeWeek(OwnedTransactions(db, user, productFilter), weekOf, w)
  {
    WeeklySalesEntries(OwnedTransactions(db, user, productFilter), weekOf);
    WeeklySales(OwnedTransactions(db, user, productFilter), weekOf)
  }

  /* ---------------------------------------------------------------------------
     Creating stock items and products
     --------------------------------------------------------------------------- */

  /** A validated stock-item body. */
  datatype StockInput = StockInput(name: string, quantity: real, unit: string)

  /** `StockItemViewSet.perform_create`: a name the requester already uses is rejected
      and nothing is stored; otherwise the item is inserted under a fresh key with the
      requester as owner. (The model's own `save` check repeats the view's and cannot
      fire here.) */
  function CreateStockItem(db: Db, user: Id, input: StockInput): (o: Outcome)
    ensures Valid(db) ==> Valid(o.db)
    ensures o.status.BadRequest? <==> StockNameTaken(db.stock, input.name, user, None)
    ensures o.status.BadRequest? ==> o.status.reason == AlreadyExists && o.db == db
    ensures o.status.Created? || o.status.BadRequest?
    ensures o.status.Created? ==>
      && o.status.id == db.nextId
      && o.db == db.(stock := db.stock[db.nextId := StockItem(input.name, input.quantity, input.unit, user)],
                     nextId := db.nextId + 1)
  {
    if StockNameTaken(db.stock, input.name, user, None) then Outcome(db, BadRequest(AlreadyExists))
    else
      var saved := SaveStockItem(db, None, StockItem(input.name, input.quantity, input.unit, user)).value;
      Outcome(saved.db, Created(saved.id))
  }

  /** Creating a stock item changes no other user's listing, and adds exactly the new item
      to the requester's. */
  lemma CreateStockItemIsolation(db: Db, user: Id, input: StockInput, other: Id)
    requires Valid(db)
    ensures var o := CreateStockItem(db, user, input);
      && (other != user ==> ListStock(o.db, other) == ListStock(db, other))
      && (o.status.Created? ==>
            ListStock(o.db, user) == ListStock(db, user)[o.status.id := StockItem(input.name, input.quantity, input.unit, user)])
  {
    var o := CreateStockItem(db, user, input);
    if o.status.Created? {
      assert db.nextId !in db.stock;
      var before := ListStock(db, other);
      var after := ListStock(o.db, other);
      if other != user {
        assert after.Keys == before.Keys;
      }
    }
  }

  /** A successful create keeps stock-item names unique per user. */
  lemma CreateStockItemKeepsNamesUnique(db: Db, user: Id, input: StockInput)
    requires Valid(db) && StockNamesUnique(db.stock)
    ensures StockNamesUnique(CreateStockItem(db, user, input).db.stock)
  {
    SaveStockItemKeepsNamesUnique(db, None, StockItem(input.name, input.quantity, input.unit, user));
  }

  /** Every ingredient entry names an existing stock item (of any owner: the serializer's
      queryset is not restricted to the requester). */
  predicate ReferencesResolve(db: Db, entries: seq<IngredientInput>) {
    forall i :: 0 <= i < |entries| ==> entries[i].stockItem in db.stock
  }

  /** `ProductViewSet.create` with its `perform_create`: unresolved stock-item keys fail
      validation, a name the requester already uses is rejected, and either way nothing
      is stored; otherwise the product and one ingredient row per entry are inserted. */
  function CreateProductView(db: Db, user: Id, input: ProductInput): (o: Outcome)
    ensures Valid(db) ==> Valid(o.db)
    ensures o.status.Created? <==>
      ReferencesResolve(db, input.ingredients) && !ProductNameTaken(db.products, input.name, user, None)
    ensures !o.status.Created? ==> o.db == db && o.status.BadRequest?
    ensures o.status.Created? ==>
      && o.status.id == db.nextId
      && o.db.products == db.products[db.nextId := Product(input.name, input.unit, user)]
      && o.db.ingredients == db.ingredients + Link(db.nextId, input.ingredients)
      && o.db.stock == db.stock && o.db.transactions == db.transactions && o.db.users == db.users
      && o.db.nextId == db.nextId + 1
  {
    if !ReferencesResolve(db, input.ingredients) then Outcome(db, BadRequest(InvalidReference))
    else if ProductNameTaken(db.products, input.name, user, None) then Outcome(db, BadRequest(AlreadyExists))
    else
      var saved := CreateProduct(db, user, input).value;
      Outcome(saved.db, Created(saved.id))
  }

  /** Creating a product changes no other user's product listing and nobody's stock
      listing. */
  lemma CreateProductIsolation(db: Db, user: Id, input: ProductInput, other: Id)
    requires Valid(db)
    ensures var o := CreateProductView(db, user, input);
      && (other != user ==> ListProducts(o.db, other) == ListProducts(db, other))
      && ListStock(o.db, other) == ListStock(db, other)
  {
    var o := CreateProductView(db, user, input);
    if o.status.Created? {
      assert o.db.products == db.products[db.nextId := Product(input.name, input.unit, user)];
      assert db.nextId !in db.products;
      if other != user {
        assert ListProducts(o.db, other).Keys == ListProducts(db, other).Keys;
      }
    }
  }

  /** A successful product create adds exactly the new product, under the returned key,
      to the requester's listing. */
  lemma CreateProductListsNew(db: Db, user: Id, input: ProductInput)
    requires Valid(db)
    requires CreateProductView(db, user, input).status.Created?
    ensures var o := CreateProductView(db, user, input);
      ListProducts(o.db, user) == ListProducts(db, user)[o.status.id := Product(input.name, input.unit, user)]
  {
    var o := CreateProductView(db, user, input);
    assert o.db.products == db.products[db.nextId := Product(input.name, input.unit, user)];
  }

  /** A product create through the API keeps product names unique per user. */
  lemma CreateProductKeepsNamesUnique(db: Db, user: Id, input: ProductInput)
    requires Valid(db) && ProductNamesUnique(db.products)
    ensures ProductNamesUnique(CreateProductView(db, user, input).db.products)
  {
    SaveProductKeepsNamesUnique(db, None, Product(input.name, input.unit, user));
  }

  /* ---------------------------------------------------------------------------
     Recording and deleting sales
     --------------------------------------------------------------------------- */

  /** A validated transaction body. */
  datatype SaleInput = SaleInput(product: Id, quantitySold: real)

  /** `TransactionViewSet.perform_create`: inside one atomic block the row is saved (fresh
      key, requester as owner, `now` as date) and `reduce_stock` runs; if it raises,
      neither the row nor any stock change persists. */
  function CreateTransactionView(db: Db, user: Id, input: SaleInput, now: int): (o: Outcome)
    ensures Valid(db) ==> Valid(o.db)
    ensures o.status.Created? <==>
      (input.product in db.products &&
       ReduceStock(db.stock, IngredientsOf(db.ingredients, input.product), input.quantitySold).Ok?)
    ensures !o.status.Created? ==> o.db == db
    ensures o.status.Created? ==>
      && o.status.id == db.nextId && o.db.nextId == db.nextId + 1
      && o.db.transactions == db.transactions + [Transaction(db.nextId, input.product, input.quantitySold, now, user)]
      && o.db.stock == ReduceStock(db.stock, IngredientsOf(db.ingredients, input.product), input.quantitySold).value
      && o.db.stock.Keys == db.stock.Keys
      && (forall k :: k in db.stock ==>
            o.db.stock[k].quantity ==
            db.stock[k].quantity - Consumed(IngredientsOf(db.ingredients, input.product), input.quantitySold, k))
      && o.db.ingredients == db.ingredients && o.db.products == db.products && o.db.users == db.users
  {
    if input.product !in db.products then Outcome(db, BadRequest(InvalidReference))
    else
      var t := Transaction(db.nextId, input.product, input.quantitySold, now, user);
      var saved := db.(transactions := db.transactions + [t], nextId := db.nextId + 1);
      match ReduceFor(saved, t)
      case Err(e) => Outcome(db, StatusOf(e))
      case Ok(reduced) => Outcome(reduced, Created(t.id))
  }

  /** The first row of `ts` keyed `id` (`queryset.get(pk=id)`; keys are unique). */
  function FindById(ts: seq<Transaction>, id: Id): (r: Option<Transaction>)
    ensures r.Some? <==> exists t :: t in ts && t.id == id
    ensures r.Some? ==> r.value in ts && r.value.id == id
  {
    if |ts| == 0 then None
    else if ts[0].id == id then Some(ts[0])
    else FindById(ts[1..], id)
  }

  /** `TransactionViewSet.destroy`: `get_object` looks the key up in `get_queryset`, so a
      transaction outside the requester's products, or outside the product a `product_id`
      names, is a 404. Otherwise `reverse_stock` runs, and then `perform_destroy` calls
      `Transaction.delete`, which runs `reverse_stock` a second time before removing the
      row. The two halves add up to the whole amount the sale took. */
  function DestroyTransactionView(db: Db, user: Id, productFilter: Option<Id>, id: Id): (o: Outcome)
    ensures o.db == db.(stock := o.db.stock, transactions := o.db.transactions)
    ensures Valid(db) ==> Valid(o.db)
    ensures o.status.NotFound? <==> !exists t :: t in OwnedTransactions(db, user, productFilter) && t.id == id
    ensures o.status.NotFound? ==> o.db == db
    ensures o.status.ServerError? ==> o.db == db
    ensures o.status.NoContent? || o.status.NotFound? || o.status.ServerError?
    ensures o.status.NoContent? ==>
      var t := FindById(OwnedTransactions(db, user, productFilter), id).value;
      && o.db.transactions == Without(db.transactions, id)
      && o.db.stock.Keys == db.stock.Keys
      && forall k :: k in db.stock ==>
           o.db.stock[k].quantity ==
           db.stock[k].quantity + Consumed(IngredientsOf(db.ingredients, t.product), t.quantitySold, k)
  {
    match FindById(OwnedTransactions(db, user, productFilter), id)
    case None => Outcome(db, NotFound)
    case Some(t) =>
      match ReverseFor(db, t)
      case Err(_) => Outcome(db, ServerError)
      case Ok(reversed) =>
        assert Valid(db) ==> Valid(reversed) by {
          if Valid(db) { ValidWithStock(db, reversed.stock); }
        }
        match DeleteTransaction(reversed, t)
        case Err(_) => Outcome(reversed, ServerError)
        case Ok(deleted) => Outcome(deleted, NoContent)
  }

  /** Recording a sale through the API and then deleting it through the API leaves the
      database as it was (only the key counter has moved): every stock quantity is back
      to its value before the sale, exactly. */
  lemma ApiDestroyRestoresStock(db: Db, user: Id, input: SaleInput, now: int)
    requires Valid(db)
    requires input.product in db.products && db.products[input.product].owner == user
    requires CreateTransactionView(db, user, input, now).status.Created?
    ensures
      var created := CreateTransactionView(db, user, input, now);
      var destroyed := DestroyTransactionView(created.db, user, None, created.status.id);
      destroyed.status == NoContent && destroyed.db == db.(nextId := db.nextId + 1)
  {
    var created := CreateTransactionView(db, user, input, now);
    var c := created.db;
    var t := Transaction(db.nextId, input.product, input.quantitySold, now, user);
    assert c == db.(stock := c.stock, transactions := db.transactions + [t], nextId := db.nextId + 1);
    assert FindById(OwnedTransactions(c, user, None), t.id) == Some(t) by {
      assert t in OwnedTransactions(c, user, None);
      var x := FindById(OwnedTransactions(c, user, None), t.id).value;
      assert x in c.transactions && x.id == t.id;
    }
    ReduceThenReverseTwice(db.stock, IngredientsOf(db.ingredients, input.product), input.quantitySold);
    WithoutAppended(db.transactions, t);
  }

  /* ---------------------------------------------------------------------------
     Password change
     --------------------------------------------------------------------------- */

  /** `ChangePasswordView.post`: a wrong current password is a 400 and changes nothing;
      otherwise the new password is hashed into the column (an absent one makes it
      unusable) and 200 is returned. Afterwards exactly the new password checks. */
  function ChangePassword(db: Db, user: Id, current: Option<string>, proposed: Option<string>): (o: Outcome)
    requires user in db.users
    ensures Valid(db) ==> Valid(o.db)
    ensures o.status.BadRequest? <==> !CheckPassword(current, db.users[user].password)
    ensures o.status.BadRequest? ==> o.status.reason == WrongPassword && o.db == db
    ensures o.status.Success? || o.status.BadRequest?
    ensures o.status.Success? ==>
      && o.db.users.Keys == db.users.Keys
      && o.db == db.(users := o.db.users)
      && (forall k :: k in db.users && k != user ==> o.db.users[k] == db.users[k])
      && o.db.users[user] == db.users[user].(password := o.db.users[user].password)
      && (forall c :: CheckPassword(c, o.db.users[user].password) <==> c.Some? && c == proposed)
  {
    var u := db.users[user];
    if !CheckPassword(current, u.password) then Outcome(db, BadRequest(WrongPassword))
    else Outcome(db.(users := db.users[user := u.(password := SetPassword(proposed))]), Success)
  }
}
